=== FILE: README.md ===
# Bug tracker core, modelled in Dafny

This project models the client-side core of a small bug-tracking web
application. Users sign in with a role: admin, developer or tester. Testers
report bugs against a project's dashboards. Developers move a bug between
pending, fixed and declined. Admins see and do everything. The model covers
the following parts of that core.

- **Data model.** Users, projects, dashboards, bugs and activity entries, with
  the closed sets of roles, priorities and statuses and their string names.
- **Mock store.** The demo backend that holds users, projects, dashboards,
  bugs and the activity log:
  - login (any non-empty password, or an empty one for a demo address);
  - registration with a generated avatar URL;
  - the current-user record in storage and logout;
  - adding a bug and updating its status or assignee, each of which prepends
    an activity entry.
- **Session.** Mounting the session from storage, the login flow (including
  the offline demo sign-in), logout, and `isAuthenticated`.
- **API client.** The cached bearer token and its copy in local storage, the
  request headers, and the "no connection" refusal while offline.
- **Routing.** The route table, and the protected-route gate that sends
  signed-out visitors to `/login` and users without a required role to
  `/dashboard`.
- **Bug context.** Lookups by id, the dashboards of all projects, the
  per-project, per-assignee and per-reporter bug lists, and the in-memory
  copies kept in step with the store after each mutation.
- **Pages.** The role-scoped, searchable and filterable bug list; the
  dashboard counts, priority-by-status chart and recent bugs; the project
  list and the project details with its percentages; the fixes page; bug
  details with dashboard badges and the status change.
- **Forms.** The new-bug form: validation, payload, redirect, and adding and
  removing attachments. The edit-bug and edit-user dialogs: schemas, default
  values and request bodies.
- **Screenshot viewer.** Zoom, rotation and reset in the viewer, and the
  disabled state of its buttons.
- **Activity feed.** Relative times, project names and author labels.
- **Notification settings.** The settings saved as JSON in local storage,
  and the sound that plays only when its flag is on.

How the model stands for the program's world:

- Local storage is a `map<string, string>` shared by all components.
- The clock is an integer parameter in milliseconds.
- Fresh ids are supplied by the caller.
- Strings are sequences of characters.
- Every operation is a pure function from the old state to the new one.

## Model

| member | source | states |
|---|---|---|
| Types.ParseRole | src/types/index.ts:2 | a role string is accepted exactly when it is `admin`, `developer` or `tester`, and the accepted role's name is that string |
| Types.ParsePriority | src/types/index.ts:26 | a priority string is accepted exactly when it is `high`, `medium` or `low`, and the accepted priority's name is that string |
| Types.ParseStatus | src/types/index.ts:27 | a status string is accepted exactly when it is `fixed`, `pending` or `declined`, and the accepted status's name is that string |
| Types.NamesRoundTrip | src/types/index.ts:2-27 | every role, priority and status is parsed back from its own name |
| Strings.ContainsAt | src/pages/Bugs.tsx:39-40 | `includes` holds exactly when the needle occurs at some offset of the text |
| Strings.ContainsEmpty | src/pages/Bugs.tsx:39-40 | every text includes the empty string, so an empty search hides nothing |
| Strings.Lower | src/pages/Bugs.tsx:39-40 | lower-casing keeps the length, maps each character on its own, and leaves no upper-case ASCII letter |
| Strings.TrimStart | src/pages/NewBug.tsx:97 | the result is a suffix of the input, it does not start with whitespace, and everything dropped is whitespace |
| Strings.TrimEnd | src/pages/NewBug.tsx:97 | the result is a prefix of the input, it does not end with whitespace, and everything dropped is whitespace |
| Strings.TrimEmptyIffBlank | src/pages/NewBug.tsx:97 | a name trims to the empty string exactly when it is all whitespace |
| Strings.JsLength | src/components/bugs/EditBugDialog.tsx:38-39 | JavaScript's `length` counts UTF-16 code units: between one and two per character, and one per character exactly when none lies outside the Basic Multilingual Plane |
| Strings.JsLengthAppend | src/components/bugs/EditBugDialog.tsx:38-39 | the length of a concatenation is the sum of the lengths |
| Strings.EmojiCountsTwice | src/components/bugs/EditBugDialog.tsx:38-39 | an emoji and a letter are two characters but three code units |
| Strings.NatToString | src/lib/mockData.ts:197 | the decimal text of a number is non-empty, all digits, and has no leading zero unless the number is 0 |
| Strings.NatToStringRoundTrip | src/lib/mockData.ts:197 | reading the decimal digits back gives the number |
| Strings.NatToStringInjective | src/lib/mockData.ts:197 | distinct numbers have distinct decimal texts |
| Strings.IntToString | src/pages/Activity.tsx:80-95 | a non-negative integer prints as its decimal digits and a negative one as a minus sign before the digits of its magnitude; the text starts with a minus sign exactly when the integer is negative |
| Strings.IntToStringInjective | src/pages/Activity.tsx:80-95 | different integers print as different text |
| Strings.EncodeUriComponent | src/lib/mockData.ts:222 | the encoding uses only URI-safe characters, never shrinks the text, leaves text made only of unreserved characters unchanged, and encodes a single character as that character's encoding |
| Strings.EncodeUriChar | src/lib/mockData.ts:222 | a character is written as itself exactly when it is unreserved; any other character becomes the percent-escaped bytes of its UTF-8 form, starting with `%` |
| Strings.EncodeUriConcat | src/lib/mockData.ts:222 | encoding a concatenation gives the concatenation of the encodings, so the text is encoded character by character |
| Strings.EncodeUriSnoc | src/lib/mockData.ts:222 | appending one character to the text appends exactly that character's encoding |
| Seqs.Filter | src/context/BugContext.tsx:161-171 | `filter` keeps exactly the elements that satisfy the predicate, and nothing else |
| Seqs.FilterMultiplicity | src/context/BugContext.tsx:161-171 | `filter` keeps every copy of a kept value and no copy of a dropped one |
| Seqs.FilterIsSubseq | src/context/BugContext.tsx:161-171 | what `filter` keeps stays in its original order |
| Seqs.FindIndex | src/lib/mockData.ts:305 | `findIndex` gives -1 exactly when no element matches, and otherwise the first match |
| Seqs.Find | src/context/BugContext.tsx:145-147 | `find` gives nothing exactly when no element matches, and otherwise a matching element of the list |
| Seqs.Take | src/pages/Dashboard.tsx:130 | `slice(0, n)` is the prefix of the first `min(n, length)` elements |
| Seqs.RemoveAt | src/pages/NewBug.tsx:231 | `splice(i, 1)` removes exactly the i-th element and shifts the rest down, as a multiset difference |
| Storage.SetThenGet | src/lib/api.ts:17-24 | a stored value is read back; removal makes a key absent; other keys are untouched |
| MockStore.LinkDashboards | src/lib/mockData.ts:135-140 | each project keeps its fields and receives exactly the dashboards whose `projectId` is its id, in order |
| MockStore.LoginUser | src/lib/mockData.ts:190-205 | login succeeds exactly when a user with that email exists and the password is non-empty or the email contains `demo`; on success that user becomes current and the token names the user and time |
| MockStore.PasswordNeverCompared | src/lib/mockData.ts:193-195 | any two non-empty passwords give the same login outcome |
| MockStore.RegisterUser | src/lib/mockData.ts:207-233 | registration fails exactly when the email is taken; otherwise the new user is appended with the given fields and becomes current |
| MockStore.AvatarNameIsEncoded | src/lib/mockData.ts:222 | the name put into the avatar URL contains only URI-safe characters |
| MockStore.GetCurrentUser | src/lib/mockData.ts:235-240 | there is no current user exactly when no id is stored (or it is empty) or no user has that id; otherwise the user is the first user with the stored id |
| MockStore.Logout | src/lib/mockData.ts:242-244 | logout removes the current-user key and keeps every other stored key and value |
| MockStore.LogoutForgetsUser | src/lib/mockData.ts:235-244 | after logout there is no current user |
| MockStore.LoginThenCurrentUser | src/lib/mockData.ts:190-240 | when user ids are unique, the user a login returns is the current user afterwards |
| MockStore.AddActivity | src/lib/mockData.ts:376-385 | exactly one entry is put at the head of the activity log, and nothing else changes |
| MockStore.AddBug | src/lib/mockData.ts:273-300 | the new bug has the given id and time, carries the draft's fields (no attachments when the draft has none) and is first in the list; one "bug_reported" entry by the reporter is logged; users, projects and dashboards are unchanged |
| MockStore.IndexOfBug | src/lib/mockData.ts:305 | a bug is found exactly when some bug has the id, and the index is the first such bug |
| MockStore.UpdateBugStatus | src/lib/mockData.ts:302-333 | it fails with "Bug not found" exactly when no bug has the id; otherwise only that bug's status and time change, the list keeps its length, and one status entry is logged |
| MockStore.UpdateBugAssignee | src/lib/mockData.ts:335-365 | it fails exactly when no bug has the id; otherwise only that bug's assignee and time change, and one "bug_assigned" entry is logged |
| MockStore.AddKeepsIdsUnique | src/lib/mockData.ts:276-286 | adding a bug with a fresh id keeps bug ids unique |
| MockStore.StatusKeepsIdsUnique | src/lib/mockData.ts:312-318 | a status update keeps bug ids unique |
| MockStore.AssigneeKeepsIdsUnique | src/lib/mockData.ts:345-351 | an assignee update keeps bug ids unique |
| ApiClient.SetToken | src/lib/api.ts:17-24 | the cached token becomes the argument; storage holds it when it is truthy and loses it otherwise; other keys are untouched |
| ApiClient.GetToken | src/lib/api.ts:27-32 | a truthy cached token wins; otherwise the stored token is read and cached |
| ApiClient.GetTokenStable | src/lib/api.ts:27-32 | reading the token twice gives the same result as reading it once |
| ApiClient.SetThenGetToken | src/lib/api.ts:17-32 | after setting a token, reading gives it back, or nothing if it was not truthy |
| ApiClient.Headers | src/lib/api.ts:38-44 | the JSON content type always comes first, and an Authorization header is present exactly when the token is truthy, as `Bearer <token>` |
| ApiClient.Request | src/lib/api.ts:35-53 | a request is refused with "No internet connection" exactly when offline; otherwise it targets the base URL, a slash and the endpoint, with the chosen method, exactly the headers of the token read through the cache, and the given payload as its body |
| ApiClient.SetTokenThenRequest | src/lib/api.ts:17-44 | after a non-empty token is set, an online request carries the JSON content type and then `Bearer <token>` as its only headers |
| Auth.Mount | src/context/AuthContext.tsx:25-37 | the restored user is exactly the store's current user, so the session is authenticated exactly when the store finds one; offline mode is off and nothing else changes |
| Auth.Login | src/context/AuthContext.tsx:87-164 | login succeeds exactly on the offline demo path, a store success, or the fallback demo path, and success authenticates. A store success makes the store's user current, ends offline mode, sets the client's token and leaves the base URL alone, and writes only the token and current-user keys of storage. A rejection while online keeps the user, storage and client. A rejection found offline switches offline mode on; with a demo email it also signs in the offline stand-in user |
| Auth.OnlineRejectionChangesNothing | src/context/AuthContext.tsx:150-160 | a rejected login while online leaves the whole application state unchanged |
| Auth.OfflineDemoRole | src/context/AuthContext.tsx:92-103 | offline demo sign-in gives the admin role when the email contains `admin`, and the tester role otherwise |
| Auth.Logout | src/context/AuthContext.tsx:166-178 | logout clears the session, the cached token and both storage keys, and keeps every other key |
| Auth.LogoutIdempotent | src/context/AuthContext.tsx:166-172 | logging out twice is the same as once, and afterwards neither a token nor a current user is found |
| Routes.Match | src/App.tsx:35-90 | the root redirects to `/dashboard`; `/login` is public; `/bugs/new` needs admin or tester; `/users` and `/settings` need admin; `/dashboard`, `/projects`, `/projects/:projectId`, `/bugs`, `/bugs/:bugId` and `/activity` are guarded with no required role and show their page with the path's parameter, and these are the only role-free routes |
| Routes.UnmatchedIsNotFound | src/App.tsx:90 | a path reaches the not-found page exactly when it matches no route |
| Routes.Gate | src/components/auth/ProtectedRoute.tsx:13-55 | signed-out visitors go to login; a user whose role is not among non-empty required roles goes to the dashboard; everyone else sees the page |
| Routes.Navigate | src/App.tsx:35-90 | a signed-out visitor only ever sees the login or not-found page; the new-bug page is never shown to a developer; users and settings only to an admin |
| Routes.NewBugGate | src/App.tsx:59-67 | a developer opening `/bugs/new` is sent to `/dashboard`, while admins and testers see the form |
| Routes.SignedOutAndRoot | src/components/auth/ProtectedRoute.tsx:41-43 | every guarded route sends a signed-out visitor to `/login`; a signed-in user at the root lands on the dashboard |
| Routes.SignedInSeesRoleFreePages | src/App.tsx:39-71 | every signed-in user, whatever the role, is shown the dashboard, projects, project, bugs, bug and activity pages, each with the path's parameter |
| BugQueries.ProjectById | src/context/BugContext.tsx:145-147 | a project is found exactly when one has the id, and it is a project of the list |
| BugQueries.AllDashboards | src/context/BugContext.tsx:149-156 | the flattened list holds every project's dashboards and nothing else |
| BugQueries.DashboardById | src/context/BugContext.tsx:149-159 | a dashboard is found exactly when some project holds one with the id |
| BugQueries.DashboardByIdProjectOrder | src/context/BugContext.tsx:149-159 | the first project that holds a match decides the result |
| BugQueries.BugsByProject | src/context/BugContext.tsx:161-163 | exactly the bugs of the project, in list order |
| BugQueries.BugsByAssignee | src/context/BugContext.tsx:165-167 | exactly the bugs assigned to the user, in list order |
| BugQueries.BugsByReporter | src/context/BugContext.tsx:169-171 | exactly the bugs the user reported, in list order |
| BugQueries.ReplaceById | src/context/BugContext.tsx:101-103 | bugs with the id become the updated bug, and all other positions are unchanged |
| BugQueries.ReplaceUnique | src/context/BugContext.tsx:101-103 | with unique ids, the replacement changes exactly one position |
| BugQueries.Refresh | src/context/BugContext.tsx:37-56 | without a user the context is unchanged; with one it mirrors the store's bugs and projects |
| BugQueries.CtxAddBug | src/context/BugContext.tsx:78-81 | the store becomes the store's result of adding the bug; the bug the store returned heads the context's list, ahead of the old list; the projects are unchanged |
| BugQueries.CtxUpdateStatus | src/context/BugContext.tsx:97-105 | an unknown id changes nothing; otherwise the store becomes the store's updated store, every context bug with the id becomes exactly the bug the store returned, and every other bug stays as it was |
| BugQueries.CtxUpdateAssignee | src/context/BugContext.tsx:121-129 | an unknown id changes nothing; otherwise the store becomes the store's updated store, every context bug with the id becomes exactly the bug the store returned, and every other bug stays as it was |
| BugQueries.StatusUpdateKeepsContextInStep | src/context/BugContext.tsx:97-105 | when the context mirrors the store, it still does after a status update |
| BugQueries.AddBugKeepsContextInStep | src/context/BugContext.tsx:78-81 | when the context mirrors the store, it still does after a bug is added |
| BugQueries.AssigneeUpdateKeepsContextInStep | src/context/BugContext.tsx:121-129 | when the context mirrors the store, it still does after an assignee update |
| BugList.RoleScope | src/pages/Bugs.tsx:27-33 | developers see the bugs assigned to them and testers the bugs they reported; admins and a signed-out visitor see every bug; order is kept |
| BugList.Visible | src/pages/Bugs.tsx:27-52 | a bug is listed exactly when it is in the role's scope and passes the search, status, priority and project filters, in list order |
| BugList.EmptyQueryMatches | src/pages/Bugs.tsx:38-40 | an empty search matches every bug |
| BugList.NoFiltersShowWholeScope | src/pages/Bugs.tsx:43-49 | with no search and both filters at "all", the list is the whole role scope |
| BugList.AdminSeesAll | src/pages/Bugs.tsx:28-52 | an admin with no filters sees every bug |
| BugList.StatusFilterNarrows | src/pages/Bugs.tsx:43 | choosing a status filters the already visible list further by that status |
| BugList.ReportActionAgreesWithRouter | src/pages/Bugs.tsx:134 | the "report bug" button is shown exactly to the users whom the router lets into `/bugs/new` |
| BugList.FixedBugs | src/pages/Fixes.tsx:33 | exactly the fixed bugs of the loaded list, in order; nothing before loading |
| BugList.FixesSearch | src/pages/Fixes.tsx:36-39 | a fixed bug is listed exactly when its title or description contains the term, ignoring case |
| BugList.FixedCount | src/pages/Fixes.tsx:79 | the badge is the length of the fixed-bugs list, at most the number of loaded bugs, and zero before loading |
| BugList.FixedCountCountsFixed | src/pages/Fixes.tsx:33-79 | once loaded, the badge is the number of loaded bugs with status `fixed` |
| BugList.FixedBugsMultiplicity | src/pages/Fixes.tsx:33 | the fixed-bugs list holds each loaded bug with status `fixed` as often as it was loaded, and no other bug |
| BugList.BadgeBoundsTable | src/pages/Fixes.tsx:33-79 | the table never lists more bugs than the badge counts; with an empty search it lists every fixed bug and its length equals the badge |
| Overview.StatusCountsPartition | src/pages/Dashboard.tsx:63-93 | the pending, fixed and declined counts add up to the total |
| Overview.Title | src/pages/Dashboard.tsx:33-34 | a visitor without a user sees the tester title |
| Overview.TitleNamesRole | src/pages/Dashboard.tsx:33-34 | the title is the capitalised role name followed by "Dashboard" |
| Overview.RowCountsPriority | src/components/dashboard/BugStats.tsx:13-30 | a chart row's three cells add up to the bugs of that priority |
| Overview.PriorityCountsPartition | src/components/dashboard/BugStats.tsx:12-31 | the high, medium and low counts add up to all bugs |
| Overview.CellsPartition | src/components/dashboard/BugStats.tsx:12-31 | the nine chart cells add up to all bugs |
| Overview.Chart | src/components/dashboard/BugStats.tsx:12-31 | three rows High, Medium and Low; the cell for a priority and a status counts exactly the bugs with both; each row totals its priority and the rows total all bugs |
| Overview.RowCells | src/components/dashboard/BugStats.tsx:13-30 | each cell of a priority's row counts exactly the bugs with that priority and that status |
| Overview.TallyStats | src/components/dashboard/BugStats.tsx:12-31 | one pass over the bugs that counts into nine slots gives the same chart |
| Overview.Recent | src/pages/Dashboard.tsx:130 | the recent list is the first five bugs of the role scope in order, or the whole scope when it is shorter |
| Overview.Dashboard | src/pages/Dashboard.tsx:26-130 | the title is the role's title; the total and the pending, fixed and declined counts are those of the role scope and partition it; the project count is the number of projects; the recent list is the scope's first five; the chart is the scope's chart |
| ProjectPages.SearchProjects | src/pages/Projects.tsx:15-18 | a project is listed exactly when its name or description contains the search, ignoring case, in list order |
| ProjectPages.EmptySearchListsAll | src/pages/Projects.tsx:15-18 | an empty search lists every project |
| ProjectPages.Card | src/pages/Projects.tsx:59-60 | a card counts exactly the bugs of its project and, of those, the pending ones; the pending count is at most the bug count, and a zero bug count means no bug belongs to the project |
| ProjectPages.Cards | src/pages/Projects.tsx:58-60 | one card per listed project, in order, each the card of that project |
| ProjectPages.Percent | src/pages/ProjectDetails.tsx:99 | the percentage is part/total times 100 rounded half-up, dividing by 1 when the total is 0: 0 for no part, 100 for the whole, at most 100 |
| ProjectPages.RelatedCount | src/pages/ProjectDetails.tsx:172-174 | a dashboard's related count is 0 exactly when no bug of the project affects it |
| ProjectPages.ProjectDetails | src/pages/ProjectDetails.tsx:24-174 | the page is not found exactly when no project has the id (the empty id when absent); otherwise it shows the first project with the id, with that project's details |
| ProjectPages.DetailsOf | src/pages/ProjectDetails.tsx:37-174 | the total and the pending, fixed and declined counts are those of the project's bugs and partition them; the recent list is their first five in order; the chart is theirs; each dashboard in order gets the number of the project's bugs affecting it |
| BugDetails.StatusChoicesComplete | src/pages/BugDetails.tsx:172-174 | the status menu offers every status, pending first |
| BugDetails.Badges | src/pages/BugDetails.tsx:203-213 | the badges are the names of the affected dashboards that are found, in the order the bug lists them, skipping the ones that are not found |
| BugDetails.FoundNames | src/pages/BugDetails.tsx:203-213 | the k-th name is the name of the k-th dashboard lookup that succeeded, one name per success, none for a failed lookup |
| BugDetails.BadgesExtremes | src/pages/BugDetails.tsx:203-213 | when every affected dashboard is found there is one badge each; when none is found there are no badges |
| BugDetails.Details | src/pages/BugDetails.tsx:35-52 | the page is not found exactly when there is no id or no bug has it; otherwise it shows that bug, the first project with its project id when one exists, its dashboard badges, and the role's permissions |
| BugDetails.ChangeStatus | src/pages/BugDetails.tsx:52-64 | a status change takes effect, as the context's status update, only for admins and developers, the only users shown the status menu (line 162); for anyone else context and store stay as they were |
| BugDetails.TesterCannotChangeStatus | src/pages/BugDetails.tsx:52-64 | a tester's status change leaves the context and the store unchanged, and a tester cannot edit |
| NewBug.OrEmpty | src/pages/NewBug.tsx:53 | the pre-selected project id, or the empty string when it is not truthy |
| NewBug.InitialForm | src/pages/NewBug.tsx:60-68 | the form starts empty, at medium priority, with the pre-selected project |
| NewBug.RedirectPath | src/pages/NewBug.tsx:58 | the page to return to, `/bugs` when none was given; never empty |
| NewBug.HandleSubmit | src/pages/NewBug.tsx:90-125 | nothing happens without a user; a blank name or missing project is rejected with its message; otherwise a pending payload reported by the user is sent |
| NewBug.DefaultsReachPayload | src/pages/NewBug.tsx:60-125 | with a non-blank name and a pre-selected project, the untouched form sends medium priority for that project |
| NewBug.SuccessRedirect | src/pages/NewBug.tsx:154-163 | success returns to the pre-selected project, else to `/` when that is where the visitor came from, else to `/bugs` |
| NewBug.RedirectTargets | src/pages/NewBug.tsx:154-163 | the redirect after success is always the project page, `/` or `/bugs` |
| NewBug.EnabledSubmitSends | src/pages/NewBug.tsx:487 | when the submit button is enabled, pressing it sends exactly when the name is not blank |
| NewBug.AddScreenshots | src/pages/NewBug.tsx:187-203 | chosen screenshots are appended after the existing ones, and nothing else in the form changes |
| NewBug.AddFiles | src/pages/NewBug.tsx:205-221 | chosen files are appended after the existing ones, and nothing else in the form changes |
| NewBug.RemoveScreenshot | src/pages/NewBug.tsx:223-233 | exactly the chosen screenshot is removed, the others keep their order, and nothing else changes |
| NewBug.RemoveFile | src/pages/NewBug.tsx:235-245 | exactly the chosen file is removed, the others keep their order, and nothing else changes |
| NewBug.RemoveUndoesAdd | src/pages/NewBug.tsx:187-245 | removing the attachment just added restores the form |
| NewBug.RemoveScreenshotKeepsOthers | src/pages/NewBug.tsx:223-233 | the remaining screenshots plus the removed one are the original ones, as a multiset |
| NewBug.SubmitAfterSignInSendsNull | src/pages/NewBug.tsx:137-141 | as written: after a sign-in stores its token, the submit request carries `Bearer null` |
| NewBug.SubmitAuthorization | src/pages/NewBug.tsx:137-141 | corrected: the submit request carries the stored sign-in token |
| NewBug.SubmitAfterSignInSendsToken | src/pages/NewBug.tsx:137-141 | corrected: after a sign-in, the submit request carries that sign-in's token |
| EditForms.ParseEditStatus | src/components/bugs/EditBugDialog.tsx:41 | the dialog accepts exactly its five status names |
| EditForms.AsEditStatus | src/components/bugs/EditBugDialog.tsx:68 | every status a bug can have is one of the dialog's own status choices |
| EditForms.TextIssues | src/components/bugs/EditBugDialog.tsx:38-39 | the title is flagged exactly when its JavaScript length is below 3, and the description exactly when below 10 |
| EditForms.EmojiTitleLongEnough | src/components/bugs/EditBugDialog.tsx:38 | an emoji followed by one letter passes the 3-character title minimum, since it is three UTF-16 code units |
| EditForms.ChoiceIssues | src/components/bugs/EditBugDialog.tsx:40-41 | priority and status are flagged exactly when they are not among their choices |
| EditForms.BugIssues | src/components/bugs/EditBugDialog.tsx:37-42 | each field is flagged exactly when its rule fails, and there are no issues exactly when all rules hold |
| EditForms.SubmitBug | src/components/bugs/EditBugDialog.tsx:82-93 | a save is sent exactly when the schema passes, carrying the entered values; otherwise the issues are reported |
| EditForms.BugDefaults | src/components/bugs/EditBugDialog.tsx:64-69 | the form starts with the bug's name as title and its description, and priority and status texts that parse back to the bug's own priority and status |
| EditForms.UntouchedBugRoundTrip | src/components/bugs/EditBugDialog.tsx:64-93 | saving the untouched dialog succeeds exactly when the bug's title and description are long enough, and then sends the bug's own values |
| EditForms.NameIssues | src/components/users/EditUserDialog.tsx:39 | the name is flagged exactly when its JavaScript length is below 2 |
| EditForms.UsernameIssues | src/components/users/EditUserDialog.tsx:40-41 | the username is flagged exactly when its JavaScript length is below 3 or it is not all letters, digits and underscores, one issue per failed rule |
| EditForms.EmailIssues | src/components/users/EditUserDialog.tsx:42 | the email is flagged exactly when it is not an email |
| EditForms.RoleIssues | src/components/users/EditUserDialog.tsx:43-45 | the role is flagged exactly when it is missing or not a known role |
| EditForms.AccountIssues | src/components/users/EditUserDialog.tsx:39-41 | name and username are flagged exactly when their rules fail |
| EditForms.ContactIssues | src/components/users/EditUserDialog.tsx:42-45 | email and role are flagged exactly when their rules fail |
| EditForms.UserIssues | src/components/users/EditUserDialog.tsx:38-46 | each field is flagged exactly when its rule fails, and there are no issues exactly when all rules hold |
| EditForms.SubmitUser | src/components/users/EditUserDialog.tsx:84-92 | a save is sent exactly when the schema passes, carrying the entered values; otherwise the issues are reported |
| EditForms.UserDefaults | src/components/users/EditUserDialog.tsx:66-71 | the defaults are the user's own values, with an empty username when the user has none |
| EditForms.MissingUsernameBlocksSave | src/components/users/EditUserDialog.tsx:66-71 | a user without a username cannot be saved unchanged, and both username rules fail |
| EditForms.UntouchedUserRoundTrip | src/components/users/EditUserDialog.tsx:66-92 | a valid user saved unchanged sends exactly its own values |
| ImageViewer.InitialValid | src/components/bugs/details/BugContentCards.tsx:23-25 | the initial viewer is in a valid state |
| ImageViewer.ZoomIn | src/components/bugs/details/BugContentCards.tsx:27 | zooming in adds 0.25 up to a cap of 3, keeps validity, and changes nothing else |
| ImageViewer.ZoomOut | src/components/bugs/details/BugContentCards.tsx:28 | zooming out subtracts 0.25 down to a floor of 0.5, keeps validity, and changes nothing else |
| ImageViewer.Rotate | src/components/bugs/details/BugContentCards.tsx:29 | rotating adds 90 degrees modulo 360, and nothing else changes |
| ImageViewer.Reset | src/components/bugs/details/BugContentCards.tsx:30-33 | reset restores scale 1 and rotation 0 and keeps the selected image; no button in the dialog calls it |
| ImageViewer.Open | src/components/bugs/details/BugContentCards.tsx:68-72 | opening an image selects it at scale 1 and rotation 0 |
| ImageViewer.Close | src/components/bugs/details/BugContentCards.tsx:111-115 | closing returns to the initial viewer |
| ImageViewer.DisabledMeansNoEffect | src/components/bugs/details/BugContentCards.tsx:129-138 | a zoom button is disabled exactly when pressing it would change nothing |
| ImageViewer.FourRotations | src/components/bugs/details/BugContentCards.tsx:29 | four rotations return to the starting view |
| ImageViewer.RunStaysValid | src/components/bugs/details/BugContentCards.tsx:23-33 | every sequence of viewer actions keeps a valid state valid |
| ImageViewer.ReachableValid | src/components/bugs/details/BugContentCards.tsx:23-33 | every state reachable from the initial viewer is valid |
| ActivityFeed.ChosenUnit | src/pages/Activity.tsx:80-93 | the first unit, from years down to minutes, that the elapsed seconds strictly exceed; none when they exceed none |
| ActivityFeed.ChosenIsLargest | src/pages/Activity.tsx:80-93 | the chosen unit is the largest one the elapsed time exceeds |
| ActivityFeed.TimeSince | src/pages/Activity.tsx:75-96 | the text counts whole units of the largest exceeded unit, or whole seconds when none is exceeded |
| ActivityFeed.OneMinuteInSeconds | src/pages/Activity.tsx:92-95 | exactly one minute reads "60 seconds ago", since the comparison is strict |
| ActivityFeed.OneHourInMinutes | src/pages/Activity.tsx:89-93 | exactly one hour reads "60 minutes ago" |
| ActivityFeed.ProjectName | src/pages/Activity.tsx:98-101 | the name of the first project with the id, or "Unknown Project" when none has it |
| ActivityFeed.NameMap | src/pages/Activity.tsx:37-45 | every user id has a name in the map, and each entry is the name of a user with that id |
| ActivityFeed.NameMapLastWins | src/pages/Activity.tsx:43-45 | for duplicate ids the last user's name is kept |
| ActivityFeed.UserLabel | src/pages/Activity.tsx:141 | the user's non-empty name, otherwise "Unknown User" |
| ActivityFeed.Feed | src/pages/Activity.tsx:134-145 | one entry per activity, in order, with its description, relative time, author label and project name |
| ActivityFeed.AuthorShown | src/pages/Activity.tsx:37-141 | with unique ids, an activity by a named user is labelled with that user's name |
| Notifications.Encode | src/services/notificationService.ts:22-24 | the settings are written as one JSON object |
| Notifications.Decode | src/services/notificationService.ts:22-28 | text that is accepted is exactly the encoding of the settings read from it |
| Notifications.UnwrapWrap | src/services/notificationService.ts:22-28 | a flat JSON object of flags, written with any non-empty key list, is read back as the same flags |
| Notifications.DecodeEncode | src/services/notificationService.ts:22-28 | the encoded settings are read back unchanged |
| Notifications.Save | src/services/notificationService.ts:22-24 | after saving, the stored text reads back as the saved settings, and every other key is untouched |
| Notifications.GetSettings | src/services/notificationService.ts:5-28 | all flags are on while nothing or the empty text is stored; otherwise stored text that does not parse is an error |
| Notifications.SaveThenGet | src/services/notificationService.ts:22-28 | reading after saving returns the saved settings |
| Notifications.SoundFollowsSavedFlag | src/services/notificationService.ts:65-73 | after saving, the sound plays exactly when the saved sound flag is on |
| Notifications.SoundOnByDefault | src/services/notificationService.ts:11-19 | with nothing stored, the sound plays |

## Left out

- Rendering, layout, icons and toasts: they display state the model computes and change none of it.
- The HTTP service layer (bug, project, user and dashboard services over axios) and the bodies of the `fetch`/axios calls in the new-bug and edit dialogs are not part of this model. Their responses are not modelled; the model stops at the request each page builds.
- Timers and promises (`setTimeout` delays, `async`): each operation is one atomic step, so stale closures and interleavings are not modelled.
- The mock store persists its own dataset as JSON under its `mock_*` keys and reloads it (`src/lib/mockData.ts:150-187`). This is left out because it is a cache of the in-memory store and adds no behaviour.
- `Date.now()` and `Math.random()` in generated ids: ids and the clock are parameters. The model assumes a fresh bug id where it needs one (`MockStore.AddKeepsIdsUnique`).
- The online and offline event listeners (`src/context/AuthContext.tsx:42-67`) and the network probe: the network state is an input to `Auth.Login` and `ApiClient.Request`.
- Browser permission requests, test notifications and audio playback (`src/services/notificationService.ts:30-63`) are foreign calls. Only the decision to play the sound is modelled.
- The activity icon choice (`getActivityIcon`) is presentation only.
- The seed dataset literals: every property is stated for every store, not for the seed.
- Router details: a path is a sequence of segments, so trailing slashes and case-sensitivity of URLs are not modelled.
- The plain getters of the mock store (`getProjects`, `getBugs` and the like) return copies. `BugQueries.Refresh` uses the store's lists directly.
- Loading flags (`isLoading`) and the revoking of object URLs for previews are not modelled.
- The route configuration, users and settings pages beyond their route entries, and environment configuration, are not modelled.
- Strings.Lower: case folding covers ASCII letters only, not full Unicode.
- Strings.EncodeUriComponent: characters are treated as Unicode scalar values encoded as one UTF-8 sequence each. UTF-16 surrogate handling, including the error for lone surrogates, is not modelled.
- Strings.IntToString: the exponent notation JavaScript uses for very large numbers is not modelled.
- ProjectPages.Percent: the source rounds a floating-point quotient with `Math.round`. The model uses exact rational half-up rounding, so floating-point representation error is not modelled.
- EditForms.EmailIssues: the validator's email check is a parameter `isEmail`, because its exact grammar is library code.
- EditForms.RoleIssues: the validator's exact wording for an unknown enum value is not modelled; only which field is flagged is.
- EditForms.BugDefaults: the dialog reads a `title` field that the canonical bug does not have. The model fills the title from the bug's `name`.
- ApiClient.Request: the body is `JSON.stringify(data)` when `data` is truthy. The caller passes the serialized text, or none for an absent or falsy `data`; serialization itself is not modelled. The `get`, `post`, `put` and `delete` helpers are `Request` with a fixed method.
- BugList.FixesSearch: the fixes page reads a `title` field that the canonical bug does not have. The model matches on the bug's `name`.
- Notifications.GetSettings: stored text other than the layout saving writes reads as a parse error, for the reason given on the next line.
- Notifications.Decode: this is weaker than `JSON.parse`. It accepts only the layout that saving writes: the six keys in order, no whitespace. Other well-formed JSON is reported as a parse error, and objects with missing or extra fields are not modelled.

## Findings

| source | as written | input that shows it | evidently intended | confidence | as-written member | corrected member |
|---|---|---|---|---|---|---|
| src/pages/NewBug.tsx:137-141 | the submit request reads its bearer token from the storage key `token`; the API client stores the sign-in token under `auth_token` (src/lib/api.ts:17-24), and nothing else in the client writes `token` (src/pages/NewBug.tsx:77 and src/components/bugs/EditBugDialog.tsx:85 read it too) | sign in, so that `auth_token` holds the token and `token` is absent, then submit a bug: the header is `Bearer null` | read the token the client stored, from `auth_token` | not executed; medium, since a script outside the client could write `token` | NewBug.SubmitAfterSignInSendsNull | NewBug.SubmitAuthorization |

=== FILE: activity_feed.dfy ===
/** The activity page: each log entry shown with the author's name, how long
    ago it happened, and its project's name. */
module ActivityFeed {
  import opened Base
  import opened Types
  import opened Strings
  import opened BugQueries

  /** A unit of the "time since" text: its length in seconds and its plural name. */
  datatype Unit = Unit(seconds: nat, name: string)

  /** Largest first: year, month (30 days), day, hour, minute. */
  const Units: seq<Unit> := [Unit(31536000, "years"), Unit(2592000, "months"), Unit(86400, "days"),
                             Unit(3600, "hours"), Unit(60, "minutes")]

  /** The first unit, from position `from` on, that `seconds` strictly exceeds. */
  function ChosenUnit(seconds: int, from: nat): (k: Option<nat>)
    requires from <= |Units|
    ensures k.None? <==> forall j :: from <= j < |Units| ==> seconds <= Units[j].seconds
    ensures k.Some? ==> (from <= k.value < |Units| && seconds > Units[k.value].seconds
      && forall j :: from <= j < k.value ==> seconds <= Units[j].seconds)
    decreases |Units| - from
  {
    if from == |Units| then None
    else if seconds > Units[from].seconds then Some(from)
    else ChosenUnit(seconds, from + 1)
  }

  /** The chosen unit is the largest one shorter than the elapsed time. */
  lemma ChosenIsLargest(seconds: int)
    ensures var k := ChosenUnit(seconds, 0);
      k.Some? ==> forall j :: 0 <= j < |Units| && Units[j].seconds < seconds ==> Units[j].seconds <= Units[k.value].seconds
  {
  }

  /** `getTimeSince`: whole seconds elapsed (rounded down, so a timestamp in
      the future gives a negative count), then the count of the largest unit
      the elapsed time strictly exceeds, or plain seconds. */
  function TimeSince(nowMs: int, createdAtMs: int): (r: string)
    ensures var seconds := (nowMs - createdAtMs) / 1000;
      match ChosenUnit(seconds, 0)
      case None => r == IntToString(seconds) + " seconds ago"
      case Some(k) => (r == IntToString(seconds / Units[k].seconds) + " " + Units[k].name + " ago"
        && seconds / Units[k].seconds >= 1)
  {
    var seconds := (nowMs - createdAtMs) / 1000;
    match ChosenUnit(seconds, 0)
    case None => IntToString(seconds) + " seconds ago"
    case Some(k) => IntToString(seconds / Units[k].seconds) + " " + Units[k].name + " ago"
  }

  lemma Sixty()
    ensures IntToString(60) == "60"
  {
    assert DigitChar(6) == '6' && DigitChar(0) == '0';
    assert NatToString(6) == "6";
  }

  /** Exactly one minute elapsed still counts in seconds. */
  lemma OneMinuteInSeconds()
    ensures TimeSince(60000, 0) == "60 seconds ago"
  {
    assert (60000 - 0) / 1000 == 60;
    assert ChosenUnit(60, 5).None?;
    assert ChosenUnit(60, 3) == ChosenUnit(60, 4) == ChosenUnit(60, 5);
    assert ChosenUnit(60, 0) == ChosenUnit(60, 1) == ChosenUnit(60, 2) == ChosenUnit(60, 3);
    Sixty();
  }

  /** Exactly one hour elapsed still counts in minutes. */
  lemma OneHourInMinutes()
    ensures TimeSince(3600000, 0) == "60 minutes ago"
  {
    assert (3600000 - 0) / 1000 == 3600;
    assert ChosenUnit(3600, 4) == Some(4);
    assert ChosenUnit(3600, 0) == ChosenUnit(3600, 1) == ChosenUnit(3600, 2) == ChosenUnit(3600, 3);
    assert 3600 / 60 == 60;
    Sixty();
  }

  /** `getProjectName`. */
  function ProjectName(ps: seq<Project>, projectId: string): (r: string)
    ensures (forall i :: 0 <= i < |ps| ==> ps[i].id != projectId) ==> r == "Unknown Project"
    ensures (exists i :: 0 <= i < |ps| && ps[i].id == projectId) ==>
      exists i :: 0 <= i < |ps| && ps[i].id == projectId && r == ps[i].name
        && forall j :: 0 <= j < i ==> ps[j].id != projectId
  {
    match ProjectById(ps, projectId)
    case None => "Unknown Project"
    case Some(p) => p.name
  }

  /** The id-to-name record filled by `users.forEach`: a later user with the same id overwrites an earlier one. */
  function NameMap(users: seq<User>): (m: map<string, string>)
    ensures forall i :: 0 <= i < |users| ==> users[i].id in m
    ensures forall id :: id in m ==> exists i :: 0 <= i < |users| && users[i].id == id && m[id] == users[i].name
    decreases |users|
  {
    if |users| == 0 then map[]
    else
      var m := NameMap(users[..|users| - 1]);
      var u := users[|users| - 1];
      assert forall i :: 0 <= i < |users| - 1 ==> users[..|users| - 1][i] == users[i];
      m[u.id := u.name]
  }

  /** The last user with an id is the one whose name is recorded. */
  lemma {:induction false} NameMapLastWins(users: seq<User>, i: nat)
    requires i < |users|
    requires forall j :: i < j < |users| ==> users[j].id != users[i].id
    ensures NameMap(users)[users[i].id] == users[i].name
    decreases |users|
  {
    if i < |users| - 1 {
      NameMapLastWins(users[..|users| - 1], i);
    }
  }

  /** `userNames[userId] || 'Unknown User'`: an unknown id or an empty name falls back. */
  function UserLabel(m: map<string, string>, userId: string): (r: string)
    ensures userId in m && m[userId] != "" ==> r == m[userId]
    ensures userId !in m || m[userId] == "" ==> r == "Unknown User"
  {
    if userId in m && m[userId] != "" then m[userId] else "Unknown User"
  }

  /** One rendered entry. */
  datatype Entry = Entry(author: string, when: string, description: string, project: string)

  /** The page: one entry per activity, in the store's order. */
  function Feed(activities: seq<Activity>, users: seq<User>, ps: seq<Project>, nowMs: int): (r: seq<Entry>)
    ensures |r| == |activities|
    ensures forall i :: 0 <= i < |r| ==> (r[i].description == activities[i].description
      && r[i].when == TimeSince(nowMs, activities[i].createdAt)
      && r[i].author == UserLabel(NameMap(users), activities[i].userId)
      && r[i].project == ProjectName(ps, activities[i].projectId))
  {
    var m := NameMap(users);
    seq(|activities|, i requires 0 <= i < |activities| =>
      Entry(UserLabel(m, activities[i].userId), TimeSince(nowMs, activities[i].createdAt),
            activities[i].description, ProjectName(ps, activities[i].projectId)))
  }

  /** With distinct user ids, an activity by a user with a non-empty name shows that name. */
  lemma AuthorShown(users: seq<User>, i: nat)
    requires i < |users| && users[i].name != ""
    requires forall j, k :: 0 <= j < k < |users| ==> users[j].id != users[k].id
    ensures UserLabel(NameMap(users), users[i].id) == users[i].name
  {
    NameMapLastWins(users, i);
  }
}

=== FILE: api_client.dfy ===
/** The REST client's token cache and request preparation: the bearer token is
    kept in a field and mirrored in storage under `auth_token`; a request carries
    an `Authorization` header exactly when a token is available and is refused
    before anything is sent when the browser is offline. The HTTP exchange
    itself is outside the model. */
module ApiClient {
  import opened Base
  import opened Storage

  /** `baseUrl` and the cached `token` field. */
  datatype Client = Client(baseUrl: string, token: Option<string>)

  /** JavaScript truthiness of `string | null`: present and non-empty. */
  predicate Truthy(t: Option<string>) {
    t.Some? && t.value != ""
  }

  datatype Tokened = Tokened(client: Client, storage: Storage)

  /** `setToken`: caches the argument; a truthy token is stored, anything else
      removes the stored one. Other storage keys are untouched. */
  function SetToken(c: Client, ls: Storage, t: Option<string>): (r: Tokened)
    ensures r.client == c.(token := t)
    ensures Truthy(t) ==> GetItem(r.storage, AuthTokenKey) == t
    ensures !Truthy(t) ==> GetItem(r.storage, AuthTokenKey) == None
    ensures forall k :: k != AuthTokenKey ==> GetItem(r.storage, k) == GetItem(ls, k)
  {
    if Truthy(t) then Tokened(c.(token := t), SetItem(ls, AuthTokenKey, t.value))
    else Tokened(c.(token := t), RemoveItem(ls, AuthTokenKey))
  }

  datatype TokenRead = TokenRead(client: Client, token: Option<string>)

  /** `getToken`: a truthy cached token is returned as is; otherwise the stored
      token is loaded into the cache and returned. */
  function GetToken(c: Client, ls: Storage): (r: TokenRead)
    ensures r.client.token == r.token && r.client.baseUrl == c.baseUrl
    ensures Truthy(c.token) ==> r.token == c.token
    ensures !Truthy(c.token) ==> r.token == GetItem(ls, AuthTokenKey)
  {
    if Truthy(c.token) then TokenRead(c, c.token)
    else TokenRead(c.(token := GetItem(ls, AuthTokenKey)), GetItem(ls, AuthTokenKey))
  }

  /** A second `getToken` returns what the first did and changes nothing more. */
  lemma GetTokenStable(c: Client, ls: Storage)
    ensures GetToken(GetToken(c, ls).client, ls) == GetToken(c, ls)
  {
  }

  /** `setToken(t)` then `getToken()` returns `t` when `t` is truthy and null
      otherwise: an empty token is cached but then reloaded from the storage it
      was removed from. */
  lemma SetThenGetToken(c: Client, ls: Storage, t: Option<string>)
    ensures var s := SetToken(c, ls, t);
      GetToken(s.client, s.storage).token == if Truthy(t) then t else None
  {
  }

  datatype Method = Get | Post | Put | Delete

  datatype Header = Header(name: string, value: string)

  /** The request handed to `fetch`; `body` is the JSON text of the payload, if any. */
  datatype HttpRequest = HttpRequest(url: string, verb: Method, headers: seq<Header>, body: Option<string>)

  /** The cache after reading the token, and either the request to send or
      the error raised before sending. */
  datatype Prepared = Prepared(client: Client, outcome: Result<HttpRequest, string>)

  const NoConnection: string := "No internet connection"

  predicate HasAuthorization(hs: seq<Header>) {
    exists i :: 0 <= i < |hs| && hs[i].name == "Authorization"
  }

  /** The header part of `request`: JSON content type, plus the bearer token when one is available. */
  function Headers(token: Option<string>): (hs: seq<Header>)
    ensures |hs| >= 1 && hs[0] == Header("Content-Type", "application/json")
    ensures HasAuthorization(hs) <==> Truthy(token)
    ensures Truthy(token) ==> hs[|hs| - 1] == Header("Authorization", "Bearer " + token.value)
  {
    var base := [Header("Content-Type", "application/json")];
    if Truthy(token) then
      var hs := base + [Header("Authorization", "Bearer " + token.value)];
      assert hs[1].name == "Authorization";
      hs
    else base
  }

  /** `request` up to the `fetch` call: the token is read (and cached) first,
      then an offline browser fails the request before anything is sent.
      `payload` is the serialized `data` argument when one was passed (and is
      truthy), and becomes the body unchanged. */
  function Request(c: Client, ls: Storage, online: bool, endpoint: string, m: Method,
                   payload: Option<string>): (r: Prepared)
    ensures r.client == GetToken(c, ls).client
    ensures r.outcome.Failure? <==> !online
    ensures r.outcome.Failure? ==> r.outcome.error == NoConnection
    ensures r.outcome.Success? ==> (r.outcome.value.url == c.baseUrl + "/" + endpoint
      && r.outcome.value.verb == m
      && r.outcome.value.body == payload
      && r.outcome.value.headers == Headers(GetToken(c, ls).token)
      && (HasAuthorization(r.outcome.value.headers) <==> Truthy(GetToken(c, ls).token)))
  {
    var read := GetToken(c, ls);
    var hs := Headers(read.token);
    if !online then Prepared(read.client, Failure(NoConnection))
    else Prepared(read.client, Success(HttpRequest(c.baseUrl + "/" + endpoint, m, hs, payload)))
  }

  /** A request sent after a token was set carries that token, read back
      through the cache, as the last header. */
  lemma SetTokenThenRequest(c: Client, ls: Storage, t: string, endpoint: string, m: Method,
                            payload: Option<string>)
    requires t != ""
    ensures var s := SetToken(c, ls, Some(t));
      var r := Request(s.client, s.storage, true, endpoint, m, payload);
      r.outcome.Success? && r.outcome.value.headers ==
        [Header("Content-Type", "application/json"), Header("Authorization", "Bearer " + t)]
  {
  }
}

=== FILE: auth.dfy ===
/** The session layer (the authentication context): the current user, the
    offline flag, and the login/logout decisions over the mock store, the API
    client's token and browser storage. `navigator.onLine` is read twice by a
    login, once before contacting the store and once after a rejection; both
    readings are inputs. */
module Auth {
  import opened Base
  import opened Types
  import opened Strings
  import opened Storage
  import opened MockStore
  import opened ApiClient

  datatype Session = Session(currentUser: Option<User>, offline: bool)

  /** Everything a login or logout touches. */
  datatype App = App(store: Store, storage: Storage, client: Client, session: Session)

  /** `isAuthenticated` is `!!currentUser`. */
  predicate IsAuthenticated(s: Session) {
    s.currentUser.Some?
  }

  /** Session restored on mount from the store's current-user id. */
  function Mount(st: Store, ls: Storage, c: Client): (r: App)
    ensures IsAuthenticated(r.session) <==> GetCurrentUser(st, ls).Some?
    ensures !r.session.offline && r.store == st && r.storage == ls && r.client == c
    ensures r.session == Session(GetCurrentUser(st, ls), false)
  {
    App(st, ls, c, Session(GetCurrentUser(st, ls), false))
  }

  /** The role of a demo account used offline. */
  function DemoRole(email: string): Role {
    if Contains(email, "admin") then Admin else Tester
  }

  /** The stand-in user of an offline demo login. */
  function OfflineUser(email: string): User {
    User("offline-user", "Demo User", email, DemoRole(email), None)
  }

  datatype LoginResult = LoginResult(app: App, ok: bool)

  /** `login`. Offline with a "demo" email it succeeds without credentials,
      using the store's current user or the offline stand-in, and enters offline
      mode. Otherwise it asks the store: on success the user becomes current,
      the token is set and offline mode ends; on rejection while offline it
      enters offline mode and still admits a demo email as the stand-in;
      on rejection while online nothing changes. */
  function Login(app: App, email: string, password: string, onlineAtStart: bool, onlineAtFailure: bool,
                 now: int): (r: LoginResult)
    ensures r.ok <==> ((!onlineAtStart && Contains(email, "demo"))
      || LoginUser(app.store, app.storage, email, password, now).Success?
      || (!onlineAtFailure && Contains(email, "demo")))
    ensures r.ok ==> IsAuthenticated(r.app.session)
    ensures !r.ok ==> (r.app.session.currentUser == app.session.currentUser
      && r.app.storage == app.storage && r.app.client == app.client)
    ensures r.app.store == app.store
    ensures !onlineAtStart && Contains(email, "demo") ==>
      && r.app.session.offline
      && r.app.storage == app.storage && r.app.client == app.client
      && r.app.session.currentUser ==
           Some(GetCurrentUser(app.store, app.storage).GetOr(OfflineUser(email)))
    ensures ((onlineAtStart || !Contains(email, "demo"))
      && LoginUser(app.store, app.storage, email, password, now).Success?) ==>
      var g := LoginUser(app.store, app.storage, email, password, now).value;
      && r.app.session == Session(Some(g.user), false)
      && r.app.client.token == Some(g.token)
      && GetItem(r.app.storage, AuthTokenKey) == Some(g.token)
      && GetItem(r.app.storage, CurrentUserKey) == Some(g.user.id)
      && r.app.client == app.client.(token := Some(g.token))
      && forall k :: k != AuthTokenKey && k != CurrentUserKey ==> GetItem(r.app.storage, k) == GetItem(app.storage, k)
    ensures ((onlineAtStart || !Contains(email, "demo"))
      && LoginUser(app.store, app.storage, email, password, now).Failure? && !onlineAtFailure) ==>
      && r.app.session.offline
      && r.app.storage == app.storage && r.app.client == app.client
      && (Contains(email, "demo") ==> r.app.session.currentUser == Some(OfflineUser(email)))
      && (!Contains(email, "demo") ==> r.app.session.currentUser == app.session.currentUser)
  {
    if !onlineAtStart && Contains(email, "demo") then
      var user := GetCurrentUser(app.store, app.storage).GetOr(OfflineUser(email));
      LoginResult(app.(session := Session(Some(user), true)), true)
    else
      match LoginUser(app.store, app.storage, email, password, now)
      case Success(g) =>
        var t := SetToken(app.client, g.storage, Some(g.token));
        LoginResult(App(app.store, t.storage, t.client, Session(Some(g.user), false)), true)
      case Failure(_) =>
        if !onlineAtFailure then
          if Contains(email, "demo") then
            LoginResult(app.(session := Session(Some(OfflineUser(email)), true)), true)
          else
            LoginResult(app.(session := app.session.(offline := true)), false)
        else LoginResult(app, false)
  }

  /** A rejected login while online leaves every part of the state as it was. */
  lemma OnlineRejectionChangesNothing(app: App, email: string, password: string, onlineAtStart: bool, now: int)
    requires LoginUser(app.store, app.storage, email, password, now).Failure?
    requires onlineAtStart || !Contains(email, "demo")
    ensures Login(app, email, password, onlineAtStart, true, now) == LoginResult(app, false)
  {
  }

  /** The offline demo role is admin exactly when the email mentions "admin". */
  lemma OfflineDemoRole(app: App, email: string, password: string, onlineAtFailure: bool, now: int)
    requires Contains(email, "demo") && GetCurrentUser(app.store, app.storage).None?
    ensures var u := Login(app, email, password, false, onlineAtFailure, now).app.session.currentUser.value;
      u.id == "offline-user" && (u.role == Admin <==> Contains(email, "admin"))
      && (u.role == Tester <==> !Contains(email, "admin"))
  {
  }

  /** `logout`: forgets the store's current-user id and the token, clears the
      user and leaves offline mode; other storage keys are untouched. */
  function Logout(app: App): (r: App)
    ensures r.session == Session(None, false) && !IsAuthenticated(r.session)
    ensures r.client.token == None && r.client.baseUrl == app.client.baseUrl
    ensures GetItem(r.storage, AuthTokenKey) == None && GetItem(r.storage, CurrentUserKey) == None
    ensures forall k :: k != AuthTokenKey && k != CurrentUserKey ==> GetItem(r.storage, k) == GetItem(app.storage, k)
    ensures r.store == app.store
  {
    var ls := MockStore.Logout(app.storage);
    var t := SetToken(app.client, ls, None);
    App(app.store, t.storage, t.client, Session(None, false))
  }

  /** Logging out twice is logging out once, and afterwards neither a token nor a
      stored user can be recovered. */
  lemma LogoutIdempotent(app: App)
    ensures Logout(Logout(app)) == Logout(app)
    ensures GetToken(Logout(app).client, Logout(app).storage).token == None
    ensures GetCurrentUser(app.store, Logout(app).storage).None?
  {
  }
}

=== FILE: base.dfy ===
/** Failure-carrying wrappers shared by every module of the model: a value that
    may be absent (JavaScript's `null`/`undefined`) and an operation that may be
    rejected with an error message (a rejected Promise or a thrown Error). */
module Base {

  datatype Option<+T> = None | Some(value: T) {
    function GetOr(default: T): T {
      match this
      case Some(v) => v
      case None => default
    }
  }

  datatype Result<+R, +E> = Success(value: R) | Failure(error: E) {
    predicate IsFailure() {
      Failure?
    }
  }
}

=== FILE: bug_details.dfy ===
/** The bug details page: the lookup by the route's id, the project link,
    the affected-dashboard badges, who may change the status and who sees
    the edit button. */
module BugDetails {
  import opened Base
  import opened Types
  import opened Storage
  import opened Seqs
  import opened MockStore
  import opened BugQueries

  /** Admins and developers get the status drop-down; everyone else sees plain text. */
  predicate CanUpdateStatus(user: Option<User>) {
    user.Some? && (user.value.role == Admin || user.value.role == Developer)
  }

  /** Only admins see "Edit Bug". */
  predicate CanEdit(user: Option<User>) {
    user.Some? && user.value.role == Admin
  }

  /** The drop-down's choices, in display order. */
  const StatusChoices: seq<Status> := [Pending, Fixed, Declined]

  lemma StatusChoicesComplete(s: Status)
    ensures s in StatusChoices
    ensures |StatusChoices| == 3 && StatusChoices[0] == Pending
  {
  }

  function IsFound(): Option<Dashboard> -> bool {
    (o: Option<Dashboard>) => o.Some?
  }

  /** The names of the dashboards that were found, in order: the k-th name is
      that of the k-th lookup that found something. */
  function FoundNames(found: seq<Option<Dashboard>>): (r: seq<string>)
    ensures |r| == |Filter(found, IsFound())|
    ensures forall k :: 0 <= k < |r| ==> r[k] == Filter(found, IsFound())[k].value.name
    ensures |r| <= |found|
  {
    if |found| == 0 then []
    else if found[0].Some? then
      var rest := FoundNames(found[1..]);
      assert Filter(found, IsFound()) == [found[0]] + Filter(found[1..], IsFound());
      [found[0].value.name] + rest
    else FoundNames(found[1..])
  }

  /** `getDashboardById` of each affected id, in order. */
  function Lookups(ps: seq<Project>, ids: seq<string>): (r: seq<Option<Dashboard>>)
    ensures |r| == |ids|
    ensures forall i :: 0 <= i < |ids| ==> r[i] == DashboardById(ps, ids[i])
  {
    seq(|ids|, i requires 0 <= i < |ids| => DashboardById(ps, ids[i]))
  }

  /** The badge names of a bug's affected dashboards: one badge, carrying the
      dashboard's name, per id that some project knows, in the ids' order;
      ids no project knows are skipped. */
  function Badges(ps: seq<Project>, ids: seq<string>): (r: seq<string>)
    ensures |r| == |Filter(Lookups(ps, ids), IsFound())|
    ensures forall k :: 0 <= k < |r| ==> r[k] == Filter(Lookups(ps, ids), IsFound())[k].value.name
    ensures |r| <= |ids|
  {
    FoundNames(Lookups(ps, ids))
  }

  /** When every affected id is known there is one badge per id, and when none
      is known there are none. */
  lemma BadgesExtremes(ps: seq<Project>, ids: seq<string>)
    ensures (forall i :: 0 <= i < |ids| ==> DashboardById(ps, ids[i]).Some?) ==> |Badges(ps, ids)| == |ids|
    ensures (forall i :: 0 <= i < |ids| ==> DashboardById(ps, ids[i]).None?) ==> Badges(ps, ids) == []
  {
    var found := Lookups(ps, ids);
    if forall i :: 0 <= i < |ids| ==> DashboardById(ps, ids[i]).Some? {
      FilterKeepsAll(found, IsFound());
    }
    if forall i :: 0 <= i < |ids| ==> DashboardById(ps, ids[i]).None? {
      FilterKeepsNone(found, IsFound());
    }
  }

  datatype View =
    | NotFound
    | Shown(bug: Bug, project: Option<Project>, badges: seq<string>, canUpdateStatus: bool, canEdit: bool)

  /** The page for the route's id. A missing id matches no bug (unlike the
      project page, which looks up `""`). */
  function Details(ctx: Ctx, bugId: Option<string>, user: Option<User>): (v: View)
    ensures v.NotFound? <==> bugId.None? || forall i :: 0 <= i < |ctx.bugs| ==> ctx.bugs[i].id != bugId.value
    ensures v.Shown? ==> (bugId.Some? && v.bug.id == bugId.value && v.bug in ctx.bugs
      && exists i :: (0 <= i < |ctx.bugs| && ctx.bugs[i] == v.bug && forall j :: 0 <= j < i ==> ctx.bugs[j].id != bugId.value))
    ensures v.Shown? ==> (v.project.Some? <==> exists i :: 0 <= i < |ctx.projects| && ctx.projects[i].id == v.bug.projectId)
    ensures v.Shown? ==> v.canUpdateStatus == CanUpdateStatus(user) && v.canEdit == CanEdit(user)
    ensures v.Shown? ==> v.project == ProjectById(ctx.projects, v.bug.projectId)
    ensures v.Shown? ==> v.badges == Badges(ctx.projects, v.bug.affectedDashboards)
    ensures v.Shown? ==> |v.badges| <= |v.bug.affectedDashboards|
  {
    if bugId.None? then NotFound
    else
      match Find(ctx.bugs, (b: Bug) => b.id == bugId.value)
      case None => NotFound
      case Some(b) =>
        Shown(b, ProjectById(ctx.projects, b.projectId), Badges(ctx.projects, b.affectedDashboards),
              CanUpdateStatus(user), CanEdit(user))
  }

  /** Choosing a status in the drop-down. The drop-down exists only for admins
      and developers, so for anyone else nothing changes. */
  function ChangeStatus(ctx: Ctx, st: Store, ls: Storage, user: Option<User>, bugId: string, status: Status,
                        actId: string, now: int): (r: Synced)
    ensures !CanUpdateStatus(user) ==> r == Synced(ctx, st)
    ensures CanUpdateStatus(user) ==> r == CtxUpdateStatus(ctx, st, ls, bugId, status, actId, now)
  {
    if CanUpdateStatus(user) then CtxUpdateStatus(ctx, st, ls, bugId, status, actId, now) else Synced(ctx, st)
  }

  /** Testers never change a bug's status from this page, and admins are the
      only ones who can both change status and edit. */
  lemma TesterCannotChangeStatus(ctx: Ctx, st: Store, ls: Storage, u: User, bugId: string, status: Status,
                                 actId: string, now: int)
    requires u.role == Tester
    ensures ChangeStatus(ctx, st, ls, Some(u), bugId, status, actId, now) == Synced(ctx, st)
    ensures CanEdit(Some(u)) == false
  {
  }
}

=== FILE: bug_list.dfy ===
/** The bug list page: the role scope (developers see their assignments,
    testers their reports), the search and the three drop-down filters; and
    the fixed-bugs page with its own search. */
module BugList {
  import opened Base
  import opened Types
  import opened Strings
  import opened Seqs
  import opened BugQueries
  import Routes

  /** Whether a bug is in the signed-in user's scope. Admins and a signed-out
      visitor see every bug. */
  predicate InScope(user: Option<User>, b: Bug) {
    match user
    case None => true
    case Some(u) =>
      (u.role == Developer ==> b.assigneeId == Some(u.id)) && (u.role == Tester ==> b.reporterId == u.id)
  }

  /** The list a user starts from, in the context's order. */
  function RoleScope(bugs: seq<Bug>, user: Option<User>): (r: seq<Bug>)
    ensures IsSubseq(r, bugs)
    ensures forall i :: 0 <= i < |bugs| ==> (bugs[i] in r <==> InScope(user, bugs[i]))
    ensures forall i :: 0 <= i < |r| ==> InScope(user, r[i])
  {
    if user.Some? && user.value.role == Developer then BugsByAssignee(bugs, user.value.id)
    else if user.Some? && user.value.role == Tester then BugsByReporter(bugs, user.value.id)
    else
      assert IsSubseq(bugs, bugs) by { FilterKeepsAll(bugs, (b: Bug) => true); FilterIsSubseq(bugs, (b: Bug) => true); }
      bugs
  }

  /** The page's filter state; `None` is the "all" choice of a drop-down, and
      the project filter holds a project id or the literal `"all"`. */
  datatype Filters = Filters(query: string, status: Option<Status>, priority: Option<Priority>, project: string)

  const NoFilters := Filters("", None, None, "all")

  /** Case-insensitive search over the name and the description. */
  predicate MatchesSearch(b: Bug, q: string) {
    ContainsIgnoreCase(b.name, q) || ContainsIgnoreCase(b.description, q)
  }

  predicate Matches(f: Filters, b: Bug) {
    MatchesSearch(b, f.query)
    && (f.status.None? || b.status == f.status.value)
    && (f.priority.None? || b.priority == f.priority.value)
    && (f.project == "all" || b.projectId == f.project)
  }

  function MatchesFn(f: Filters): Bug -> bool {
    (b: Bug) => Matches(f, b)
  }

  /** The rows the page lists: the role scope narrowed by every filter, order kept. */
  function Visible(bugs: seq<Bug>, user: Option<User>, f: Filters): (r: seq<Bug>)
    ensures IsSubseq(r, bugs)
    ensures forall i :: 0 <= i < |bugs| ==> (bugs[i] in r <==> InScope(user, bugs[i]) && Matches(f, bugs[i]))
  {
    var scoped := RoleScope(bugs, user);
    var r := Filter(scoped, MatchesFn(f));
    FilterIsSubseq(scoped, MatchesFn(f));
    SubseqTransitive(r, scoped, bugs);
    r
  }

  /** The empty query matches every bug. */
  lemma EmptyQueryMatches(b: Bug)
    ensures MatchesSearch(b, "")
  {
    assert Lower("") == "";
    ContainsEmpty(Lower(b.name));
  }

  /** With every filter at its initial value the page lists the whole scope. */
  lemma {:induction false} NoFiltersShowWholeScope(bugs: seq<Bug>, user: Option<User>)
    ensures Visible(bugs, user, NoFilters) == RoleScope(bugs, user)
  {
    var scoped := RoleScope(bugs, user);
    forall b | b in scoped ensures Matches(NoFilters, b) {
      EmptyQueryMatches(b);
    }
    FilterKeepsAll(scoped, MatchesFn(NoFilters));
  }

  /** An admin with no filters sees every bug. */
  lemma AdminSeesAll(bugs: seq<Bug>, admin: User)
    requires admin.role == Admin
    ensures Visible(bugs, Some(admin), NoFilters) == bugs
  {
    NoFiltersShowWholeScope(bugs, Some(admin));
  }

  /** Choosing a status narrows the current list to the bugs with that status, order kept. */
  lemma {:induction false} StatusFilterNarrows(bugs: seq<Bug>, user: Option<User>, f: Filters, s: Status)
    requires f.status.None?
    ensures Visible(bugs, user, f.(status := Some(s))) == Filter(Visible(bugs, user, f), (b: Bug) => b.status == s)
  {
    var scoped := RoleScope(bugs, user);
    FilterFilter(scoped, MatchesFn(f), (b: Bug) => b.status == s, MatchesFn(f.(status := Some(s))));
  }

  /** The "Report Bug" link on an empty list: admins and testers only. */
  predicate ShowReportAction(user: Option<User>) {
    user.Some? && (user.value.role == Admin || user.value.role == Tester)
  }

  /** The link is offered exactly to the users the router lets through to the bug form. */
  lemma ReportActionAgreesWithRouter(u: User)
    ensures ShowReportAction(Some(u)) <==> Routes.Navigate(["bugs", "new"], Some(u)) == Routes.Show(Routes.NewBugPage)
  {
    Routes.NewBugGate(u);
  }

  /** The fixed-bugs page: the loaded list (none while loading or after an
      error) narrowed to status `Fixed`. */
  function FixedBugs(loaded: Option<seq<Bug>>): (r: seq<Bug>)
    ensures loaded.None? ==> r == []
    ensures forall i :: 0 <= i < |r| ==> r[i].status == Fixed
    ensures loaded.Some? ==> IsSubseq(r, loaded.value)
    ensures loaded.Some? ==> forall i :: 0 <= i < |loaded.value| ==> (loaded.value[i] in r <==> loaded.value[i].status == Fixed)
  {
    match loaded
    case None => []
    case Some(bugs) =>
      FilterIsSubseq(bugs, (b: Bug) => b.status == Fixed);
      Filter(bugs, (b: Bug) => b.status == Fixed)
  }

  /** The fixed-bugs search, over the title and the description. */
  function FixesSearch(fixed: seq<Bug>, term: string): (r: seq<Bug>)
    ensures IsSubseq(r, fixed)
    ensures forall i :: 0 <= i < |fixed| ==> (fixed[i] in r <==> MatchesSearch(fixed[i], term))
  {
    FilterIsSubseq(fixed, (b: Bug) => MatchesSearch(b, term));
    Filter(fixed, (b: Bug) => MatchesSearch(b, term))
  }

  /** The "N Issues Fixed" badge counts the fixed bugs before the search is applied. */
  function FixedCount(loaded: Option<seq<Bug>>): (n: nat)
    ensures loaded.None? ==> n == 0
    ensures loaded.Some? ==> n <= |loaded.value|
    ensures n == |FixedBugs(loaded)|
  {
    |FixedBugs(loaded)|
  }

  /** How many of the bugs have status `Fixed`, counted one by one. */
  function FixedIn(bugs: seq<Bug>): nat {
    if |bugs| == 0 then 0 else (if bugs[0].status == Fixed then 1 else 0) + FixedIn(bugs[1..])
  }

  /** Once loaded, the badge is the number of loaded bugs whose status is `Fixed`. */
  lemma FixedCountCountsFixed(bugs: seq<Bug>)
    ensures FixedCount(Some(bugs)) == FixedIn(bugs)
  {
    FilterCountsOneByOne(bugs);
  }

  /** The page lists each fixed bug as often as it was loaded, and no other bug. */
  lemma FixedBugsMultiplicity(bugs: seq<Bug>)
    ensures forall b :: multiset(FixedBugs(Some(bugs)))[b] == if b.status == Fixed then multiset(bugs)[b] else 0
  {
    FilterMultiplicity(bugs, (b: Bug) => b.status == Fixed);
  }

  lemma {:induction false} FilterCountsOneByOne(bugs: seq<Bug>)
    ensures |Filter(bugs, (b: Bug) => b.status == Fixed)| == FixedIn(bugs)
  {
    if |bugs| > 0 {
      FilterCountsOneByOne(bugs[1..]);
    }
  }

  /** The badge never counts fewer rows than the table shows, and with an
      empty search the two agree. */
  lemma {:induction false} BadgeBoundsTable(loaded: Option<seq<Bug>>, term: string)
    ensures |FixesSearch(FixedBugs(loaded), term)| <= FixedCount(loaded)
    ensures term == "" ==> FixesSearch(FixedBugs(loaded), term) == FixedBugs(loaded)
    ensures term == "" ==> |FixesSearch(FixedBugs(loaded), term)| == FixedCount(loaded)
  {
    var fixed := FixedBugs(loaded);
    if term == "" {
      forall b | b in fixed ensures MatchesSearch(b, term) {
        EmptyQueryMatches(b);
      }
      FilterKeepsAll(fixed, (b: Bug) => MatchesSearch(b, term));
    }
  }
}

=== FILE: bug_queries.dfy ===
/** The bug context: the page-facing copy of the store's bugs and projects, its
    lookups (`getProjectById`, `getDashboardById`, `getBugsBy...`) and the way
    it mirrors store mutations locally (prepend on add, replace-by-id on
    update). */
module BugQueries {
  import opened Base
  import opened Types
  import opened Seqs
  import opened Storage
  import opened MockStore

  /** `getProjectById`: the first project with that id, or none. */
  function ProjectById(ps: seq<Project>, id: string): (r: Option<Project>)
    ensures r.None? <==> forall i :: 0 <= i < |ps| ==> ps[i].id != id
    ensures r.Some? ==> exists i :: (0 <= i < |ps| && ps[i] == r.value && ps[i].id == id
      && forall j :: 0 <= j < i ==> ps[j].id != id)
  {
    Find(ps, (p: Project) => p.id == id)
  }

  /** Every project's dashboards, concatenated in project order. */
  function AllDashboards(ps: seq<Project>): (r: seq<Dashboard>)
    ensures forall i, j :: 0 <= i < |ps| && 0 <= j < |ps[i].dashboards| ==> ps[i].dashboards[j] in r
    ensures forall k :: 0 <= k < |r| ==> exists i :: 0 <= i < |ps| && r[k] in ps[i].dashboards
  {
    if |ps| == 0 then []
    else
      var rest := AllDashboards(ps[1..]);
      var r := ps[0].dashboards + rest;
      assert forall k :: |ps[0].dashboards| <= k < |r| ==> r[k] == rest[k - |ps[0].dashboards|];
      r
  }

  predicate HasId(d: Dashboard, id: string) {
    d.id == id
  }

  /** `getDashboardById`: the first dashboard with that id across all projects, in project order. */
  function DashboardById(ps: seq<Project>, id: string): (r: Option<Dashboard>)
    ensures r.None? <==> forall i, j :: 0 <= i < |ps| && 0 <= j < |ps[i].dashboards| ==> ps[i].dashboards[j].id != id
    ensures r.Some? ==> r.value.id == id && exists i :: 0 <= i < |ps| && r.value in ps[i].dashboards
  {
    AbsentFromAll(ps, id);
    Find(AllDashboards(ps), (d: Dashboard) => HasId(d, id))
  }

  lemma AbsentFromAll(ps: seq<Project>, id: string)
    ensures Find(AllDashboards(ps), (d: Dashboard) => HasId(d, id)).None? ==>
      forall i, j :: 0 <= i < |ps| && 0 <= j < |ps[i].dashboards| ==> ps[i].dashboards[j].id != id
  {
    var all := AllDashboards(ps);
    if Find(all, (d: Dashboard) => HasId(d, id)).None? {
      forall i, j | 0 <= i < |ps| && 0 <= j < |ps[i].dashboards| ensures ps[i].dashboards[j].id != id {
        var d := ps[i].dashboards[j];
        assert d in all;
        var k :| 0 <= k < |all| && all[k] == d;
        assert !HasId(all[k], id);
      }
    }
  }

  /** Finding in a concatenation looks in the first part first. */
  lemma {:induction false} FindAppend<T>(a: seq<T>, b: seq<T>, p: T -> bool)
    ensures Find(a + b, p) == if Find(a, p).Some? then Find(a, p) else Find(b, p)
  {
    if |a| == 0 {
      assert a + b == b;
    } else {
      assert (a + b)[1..] == a[1..] + b;
      FindAppend(a[1..], b, p);
      if !p(a[0]) {
        assert Find(a + b, p) == Find(a[1..] + b, p);
        assert Find(a, p) == Find(a[1..], p);
      }
    }
  }

  /** A dashboard id present in an earlier project hides the same id in later projects. */
  lemma {:induction false} DashboardByIdProjectOrder(ps: seq<Project>, id: string)
    requires |ps| > 0
    ensures DashboardById(ps, id) ==
      if Find(ps[0].dashboards, (d: Dashboard) => HasId(d, id)).Some?
      then Find(ps[0].dashboards, (d: Dashboard) => HasId(d, id))
      else DashboardById(ps[1..], id)
  {
    FindAppend(ps[0].dashboards, AllDashboards(ps[1..]), (d: Dashboard) => HasId(d, id));
  }

  /** `getBugsByProject`: exactly the bugs of that project, in order. */
  function BugsByProject(bugs: seq<Bug>, projectId: string): (r: seq<Bug>)
    ensures forall i :: 0 <= i < |r| ==> r[i] in bugs && r[i].projectId == projectId
    ensures forall i :: 0 <= i < |bugs| && bugs[i].projectId == projectId ==> bugs[i] in r
    ensures IsSubseq(r, bugs)
  {
    FilterIsSubseq(bugs, (b: Bug) => b.projectId == projectId);
    Filter(bugs, (b: Bug) => b.projectId == projectId)
  }

  /** `getBugsByAssignee`: exactly the bugs assigned to that user, in order;
      an unassigned bug matches no user. */
  function BugsByAssignee(bugs: seq<Bug>, userId: string): (r: seq<Bug>)
    ensures forall i :: 0 <= i < |r| ==> r[i] in bugs && r[i].assigneeId == Some(userId)
    ensures forall i :: 0 <= i < |bugs| && bugs[i].assigneeId == Some(userId) ==> bugs[i] in r
    ensures IsSubseq(r, bugs)
  {
    FilterIsSubseq(bugs, (b: Bug) => b.assigneeId == Some(userId));
    Filter(bugs, (b: Bug) => b.assigneeId == Some(userId))
  }

  /** `getBugsByReporter`: exactly the bugs reported by that user, in order. */
  function BugsByReporter(bugs: seq<Bug>, userId: string): (r: seq<Bug>)
    ensures forall i :: 0 <= i < |r| ==> r[i] in bugs && r[i].reporterId == userId
    ensures forall i :: 0 <= i < |bugs| && bugs[i].reporterId == userId ==> bugs[i] in r
    ensures IsSubseq(r, bugs)
  {
    FilterIsSubseq(bugs, (b: Bug) => b.reporterId == userId);
    Filter(bugs, (b: Bug) => b.reporterId == userId)
  }

  /** `bugs.map(b => b.id === id ? updated : b)`: same length, every entry with
      that id replaced, every other entry untouched. */
  function ReplaceById(bugs: seq<Bug>, id: string, updated: Bug): (r: seq<Bug>)
    ensures |r| == |bugs|
    ensures forall i :: 0 <= i < |bugs| && bugs[i].id == id ==> r[i] == updated
    ensures forall i :: 0 <= i < |bugs| && bugs[i].id != id ==> r[i] == bugs[i]
  {
    if |bugs| == 0 then []
    else [if bugs[0].id == id then updated else bugs[0]] + ReplaceById(bugs[1..], id, updated)
  }

  /** The context's lists. */
  datatype Ctx = Ctx(bugs: seq<Bug>, projects: seq<Project>)

  /** The context and the store after one context operation. */
  datatype Synced = Synced(ctx: Ctx, store: Store)

  /** `refreshData`: without a user nothing happens; otherwise the lists are reloaded from the store. */
  function Refresh(ctx: Ctx, currentUser: Option<User>, st: Store): (r: Ctx)
    ensures currentUser.None? ==> r == ctx
    ensures currentUser.Some? ==> r.bugs == st.bugs && r.projects == st.projects
  {
    if currentUser.None? then ctx else Ctx(st.bugs, st.projects)
  }

  /** `addBug`: the store's new bug is prepended to the context's list. */
  function CtxAddBug(ctx: Ctx, st: Store, d: BugDraft, bugId: string, actId: string, now: int): (r: Synced)
    ensures |r.ctx.bugs| == |ctx.bugs| + 1 && r.ctx.bugs[1..] == ctx.bugs
    ensures r.ctx.bugs[0].id == bugId && r.ctx.bugs[0].name == d.name && r.ctx.bugs[0].createdAt == now
    ensures r.ctx.projects == ctx.projects
    ensures r.store.bugs == [r.ctx.bugs[0]] + st.bugs
    ensures r.store == AddBug(st, d, bugId, actId, now).store
    ensures r.ctx.bugs == [AddBug(st, d, bugId, actId, now).bug] + ctx.bugs
  {
    var c := AddBug(st, d, bugId, actId, now);
    Synced(ctx.(bugs := [c.bug] + ctx.bugs), c.store)
  }

  /** `updateBugStatus`: a store failure leaves both lists alone; success
      replaces the bug by id in the context's list. */
  function CtxUpdateStatus(ctx: Ctx, st: Store, ls: Storage, bugId: string, status: Status, actId: string,
                           now: int): (r: Synced)
    ensures (forall i :: 0 <= i < |st.bugs| ==> st.bugs[i].id != bugId) ==> r == Synced(ctx, st)
    ensures |r.ctx.bugs| == |ctx.bugs| && r.ctx.projects == ctx.projects
    ensures forall i :: 0 <= i < |ctx.bugs| && ctx.bugs[i].id != bugId ==> r.ctx.bugs[i] == ctx.bugs[i]
    ensures (exists k :: 0 <= k < |st.bugs| && st.bugs[k].id == bugId) ==>
      forall i :: 0 <= i < |ctx.bugs| && ctx.bugs[i].id == bugId ==> r.ctx.bugs[i].status == status && r.ctx.bugs[i].updatedAt == now
    ensures UpdateBugStatus(st, ls, bugId, status, actId, now).Success? ==>
      && r.store == UpdateBugStatus(st, ls, bugId, status, actId, now).value.store
      && forall i :: 0 <= i < |ctx.bugs| && ctx.bugs[i].id == bugId ==>
           r.ctx.bugs[i] == UpdateBugStatus(st, ls, bugId, status, actId, now).value.bug
  {
    match UpdateBugStatus(st, ls, bugId, status, actId, now)
    case Failure(_) => Synced(ctx, st)
    case Success(c) => Synced(ctx.(bugs := ReplaceById(ctx.bugs, bugId, c.bug)), c.store)
  }

  /** `updateBugAssignee`: as `updateBugStatus`, for the assignee. */
  function CtxUpdateAssignee(ctx: Ctx, st: Store, ls: Storage, bugId: string, assigneeId: string, actId: string,
                             now: int): (r: Synced)
    ensures (forall i :: 0 <= i < |st.bugs| ==> st.bugs[i].id != bugId) ==> r == Synced(ctx, st)
    ensures |r.ctx.bugs| == |ctx.bugs| && r.ctx.projects == ctx.projects
    ensures forall i :: 0 <= i < |ctx.bugs| && ctx.bugs[i].id != bugId ==> r.ctx.bugs[i] == ctx.bugs[i]
    ensures (exists k :: 0 <= k < |st.bugs| && st.bugs[k].id == bugId) ==>
      forall i :: 0 <= i < |ctx.bugs| && ctx.bugs[i].id == bugId ==> r.ctx.bugs[i].assigneeId == Some(assigneeId) && r.ctx.bugs[i].updatedAt == now
    ensures UpdateBugAssignee(st, ls, bugId, assigneeId, actId, now).Success? ==>
      && r.store == UpdateBugAssignee(st, ls, bugId, assigneeId, actId, now).value.store
      && forall i :: 0 <= i < |ctx.bugs| && ctx.bugs[i].id == bugId ==>
           r.ctx.bugs[i] == UpdateBugAssignee(st, ls, bugId, assigneeId, actId, now).value.bug
  {
    match UpdateBugAssignee(st, ls, bugId, assigneeId, actId, now)
    case Failure(_) => Synced(ctx, st)
    case Success(c) => Synced(ctx.(bugs := ReplaceById(ctx.bugs, bugId, c.bug)), c.store)
  }

  /** With distinct ids, replacing every entry with the id is replacing the one entry that has it. */
  lemma ReplaceUnique(bugs: seq<Bug>, i: nat, updated: Bug)
    requires i < |bugs| && UniqueBugIds(bugs)
    ensures ReplaceById(bugs, bugs[i].id, updated) == bugs[i := updated]
  {
    var r := ReplaceById(bugs, bugs[i].id, updated);
    forall j | 0 <= j < |r| ensures r[j] == bugs[i := updated][j] {
      if j != i { assert bugs[j].id != bugs[i].id; }
    }
  }

  /** When the context holds the store's list and bug ids are distinct, the
      context's replace-every-match and the store's replace-first-match give
      the same list: the two copies stay in step. */
  lemma StatusUpdateKeepsContextInStep(ctx: Ctx, st: Store, ls: Storage, bugId: string, status: Status,
                                       actId: string, now: int)
    requires ctx.bugs == st.bugs && UniqueBugIds(st.bugs)
    ensures var r := CtxUpdateStatus(ctx, st, ls, bugId, status, actId, now); r.ctx.bugs == r.store.bugs
  {
    match UpdateBugStatus(st, ls, bugId, status, actId, now)
    case Failure(_) =>
    case Success(c) =>
      var i :| 0 <= i < |st.bugs| && st.bugs[i].id == bugId && c.store.bugs == st.bugs[i := c.bug];
      ReplaceUnique(st.bugs, i, c.bug);
  }

  /** Adding a bug keeps a context that holds the store's list in step with it. */
  lemma AddBugKeepsContextInStep(ctx: Ctx, st: Store, d: BugDraft, bugId: string, actId: string, now: int)
    requires ctx.bugs == st.bugs
    ensures var r := CtxAddBug(ctx, st, d, bugId, actId, now); r.ctx.bugs == r.store.bugs
  {
  }

  /** The same for assignee updates. */
  lemma AssigneeUpdateKeepsContextInStep(ctx: Ctx, st: Store, ls: Storage, bugId: string, assigneeId: string,
                                         actId: string, now: int)
    requires ctx.bugs == st.bugs && UniqueBugIds(st.bugs)
    ensures var r := CtxUpdateAssignee(ctx, st, ls, bugId, assigneeId, actId, now); r.ctx.bugs == r.store.bugs
  {
    match UpdateBugAssignee(st, ls, bugId, assigneeId, actId, now)
    case Failure(_) =>
    case Success(c) =>
      var i :| 0 <= i < |st.bugs| && st.bugs[i].id == bugId && c.store.bugs == st.bugs[i := c.bug];
      ReplaceUnique(st.bugs, i, c.bug);
  }
}

=== FILE: edit_forms.dfy ===
/** The two edit dialogs' schemas, defaults and request bodies. A schema
    reports every failing check, field by field, and the request is built
    only from values that passed. */
module EditForms {
  import opened Base
  import opened Types
  import opened Seqs
  import opened Strings

  /** The schema keys of the two forms. */
  datatype Field =
    | TitleField | DescriptionField | PriorityField | StatusField
    | NameField | UsernameField | EmailField | RoleField

  /** One validation message, attached to a form field. */
  datatype Issue = Issue(field: Field, message: string)

  /** The fields an issue list flags. */
  function Fields(issues: seq<Issue>): (fs: set<Field>)
    ensures issues == [] ==> fs == {}
  {
    if |issues| == 0 then {} else {issues[0].field} + Fields(issues[1..])
  }

  predicate Flags(issues: seq<Issue>, field: Field) {
    field in Fields(issues)
  }

  lemma {:induction false} FieldsAppend(a: seq<Issue>, b: seq<Issue>)
    ensures Fields(a + b) == Fields(a) + Fields(b)
  {
    if |a| == 0 {
      assert a + b == b;
    } else {
      assert (a + b)[1..] == a[1..] + b;
      FieldsAppend(a[1..], b);
    }
  }

  /** The issue list `[Issue(field, message)]` when `bad`, else nothing. */
  function Check(bad: bool, field: Field, message: string): (r: seq<Issue>)
    ensures Fields(r) == if bad then {field} else {}
    ensures r == [] <==> !bad
  {
    if bad then [Issue(field, message)] else []
  }

  /** The message zod gives an enum value outside the list; its exact wording is not modelled. */
  const InvalidEnum: string := "Invalid enum value"

  // ---------------------------------------------------------------- bug dialog

  /** The dialog's status list is wider than the data model's: it adds
      `in_progress` and `rejected`. */
  datatype EditStatus = EditPending | InProgress | EditFixed | EditDeclined | Rejected

  function ParseEditStatus(s: string): (r: Option<EditStatus>)
    ensures r.Some? <==> s in ["pending", "in_progress", "fixed", "declined", "rejected"]
  {
    if s == "pending" then Some(EditPending)
    else if s == "in_progress" then Some(InProgress)
    else if s == "fixed" then Some(EditFixed)
    else if s == "declined" then Some(EditDeclined)
    else if s == "rejected" then Some(Rejected)
    else None
  }

  /** Every status of the data model is accepted by the dialog. */
  function AsEditStatus(s: Status): (e: EditStatus)
    ensures ParseEditStatus(StatusName(s)) == Some(e)
  {
    match s
    case Pending => EditPending
    case Fixed => EditFixed
    case Declined => EditDeclined
  }

  /** The raw values in the form. */
  datatype BugValues = BugValues(title: string, description: string, priority: string, status: string)

  /** The request body: exactly these four fields. */
  datatype BugUpdate = BugUpdate(title: string, description: string, priority: Priority, status: EditStatus)

  function BugIssues(v: BugValues): (r: seq<Issue>)
    ensures Flags(r, TitleField) <==> JsLength(v.title) < 3
    ensures Flags(r, DescriptionField) <==> JsLength(v.description) < 10
    ensures Flags(r, PriorityField) <==> ParsePriority(v.priority).None?
    ensures Flags(r, StatusField) <==> ParseEditStatus(v.status).None?
    ensures r == [] <==> (JsLength(v.title) >= 3 && JsLength(v.description) >= 10 && ParsePriority(v.priority).Some?
      && ParseEditStatus(v.status).Some?)
  {
    Join(TextIssues(v.title, v.description), ChoiceIssues(v.priority, v.status))
  }

  /** The title and description checks, in the form's order. A minimum
      length compares JavaScript lengths, so a character outside the Basic
      Multilingual Plane counts twice. */
  function TextIssues(title: string, description: string): (r: seq<Issue>)
    ensures Fields(r) <= {TitleField, DescriptionField}
    ensures TitleField in Fields(r) <==> JsLength(title) < 3
    ensures DescriptionField in Fields(r) <==> JsLength(description) < 10
    ensures r == [] <==> JsLength(title) >= 3 && JsLength(description) >= 10
  {
    Join(Check(JsLength(title) < 3, TitleField, "Bug title must be at least 3 characters"),
         Check(JsLength(description) < 10, DescriptionField, "Description must be at least 10 characters"))
  }

  /** The priority and status checks, in the form's order. */
  function ChoiceIssues(priority: string, status: string): (r: seq<Issue>)
    ensures Fields(r) <= {PriorityField, StatusField}
    ensures PriorityField in Fields(r) <==> ParsePriority(priority).None?
    ensures StatusField in Fields(r) <==> ParseEditStatus(status).None?
    ensures r == [] <==> ParsePriority(priority).Some? && ParseEditStatus(status).Some?
  {
    Join(Check(ParsePriority(priority).None?, PriorityField, InvalidEnum),
         Check(ParseEditStatus(status).None?, StatusField, InvalidEnum))
  }

  /** Submitting the bug dialog: the issues, or the body built from the validated values. */
  function SubmitBug(v: BugValues): (r: Result<BugUpdate, seq<Issue>>)
    ensures r.Success? <==> (JsLength(v.title) >= 3 && JsLength(v.description) >= 10 && ParsePriority(v.priority).Some?
      && ParseEditStatus(v.status).Some?)
    ensures r.Failure? ==> r.error == BugIssues(v) && |r.error| > 0
    ensures r.Success? ==> (r.value.title == v.title && r.value.description == v.description
      && PriorityName(r.value.priority) == v.priority && ParseEditStatus(v.status) == Some(r.value.status))
  {
    var issues := BugIssues(v);
    if issues != [] then Failure(issues)
    else Success(BugUpdate(v.title, v.description, ParsePriority(v.priority).value, ParseEditStatus(v.status).value))
  }

  /** The form opened on a bug: its title (the bug's name), description, priority and status. */
  function BugDefaults(b: Bug): (v: BugValues)
    ensures v.title == b.name && v.description == b.description
    ensures ParsePriority(v.priority) == Some(b.priority)
    ensures ParseEditStatus(v.status) == Some(AsEditStatus(b.status))
  {
    NamesRoundTrip(Admin, b.priority, b.status);
    BugValues(b.name, b.description, PriorityName(b.priority), StatusName(b.status))
  }

  /** Saving the dialog untouched sends the bug's own values back, provided
      its title and description meet the minimum lengths; otherwise it is
      refused and the two fields are flagged. */
  lemma UntouchedBugRoundTrip(b: Bug)
    ensures SubmitBug(BugDefaults(b)).Success? <==> JsLength(b.name) >= 3 && JsLength(b.description) >= 10
    ensures SubmitBug(BugDefaults(b)).Success? ==>
      SubmitBug(BugDefaults(b)).value == BugUpdate(b.name, b.description, b.priority, AsEditStatus(b.status))
  {
    var v := BugDefaults(b);
    if SubmitBug(v).Success? {
      var p := SubmitBug(v).value.priority;
      assert ParsePriority(v.priority) == Some(p);
    }
  }

  // --------------------------------------------------------------- user dialog

  /** The user as the users page hands it to the dialog; the backend may send a username. */
  datatype UserRecord = UserRecord(id: string, name: string, username: Option<string>, email: string, role: Role)

  /** The raw values in the form; `role` is `None` while nothing is selected. */
  datatype UserValues = UserValues(name: string, username: string, email: string, role: Option<string>)

  /** The request body: exactly these four fields. */
  datatype UserUpdate = UserUpdate(name: string, username: string, email: string, role: Role)

  /** `[a-zA-Z0-9_]`. */
  predicate UsernameChar(c: char) {
    'a' <= c <= 'z' || 'A' <= c <= 'Z' || '0' <= c <= '9' || c == '_'
  }

  /** `/^[a-zA-Z0-9_]+$/`: non-empty and every character allowed. */
  predicate UsernamePattern(s: string) {
    |s| > 0 && forall i :: 0 <= i < |s| ==> UsernameChar(s[i])
  }

  predicate ValidUsername(s: string) {
    JsLength(s) >= 3 && UsernamePattern(s)
  }

  const RoleRequired: string := "Please select a role"

  /** Every failing check, in schema order. The username's two checks run
      independently, so a short name with a bad character gets two issues.
      Whether a string is an email address is decided by `isEmail`. */
  function UserIssues(v: UserValues, isEmail: string -> bool): (r: seq<Issue>)
    ensures Flags(r, NameField) <==> JsLength(v.name) < 2
    ensures Flags(r, UsernameField) <==> !ValidUsername(v.username)
    ensures Flags(r, EmailField) <==> !isEmail(v.email)
    ensures Flags(r, RoleField) <==> !KnownRole(v.role)
    ensures r == [] <==> (JsLength(v.name) >= 2 && ValidUsername(v.username) && isEmail(v.email) && KnownRole(v.role))
  {
    Join(AccountIssues(v.name, v.username), ContactIssues(v.email, isEmail, v.role))
  }

  /** The name and username checks, in the form's order. */
  function AccountIssues(name: string, username: string): (r: seq<Issue>)
    ensures Fields(r) <= {NameField, UsernameField}
    ensures NameField in Fields(r) <==> JsLength(name) < 2
    ensures UsernameField in Fields(r) <==> !ValidUsername(username)
    ensures r == [] <==> JsLength(name) >= 2 && ValidUsername(username)
  {
    Join(NameIssues(name), UsernameIssues(username))
  }

  /** The email and role checks, in the form's order. */
  function ContactIssues(email: string, isEmail: string -> bool, role: Option<string>): (r: seq<Issue>)
    ensures Fields(r) <= {EmailField, RoleField}
    ensures EmailField in Fields(r) <==> !isEmail(email)
    ensures RoleField in Fields(r) <==> !KnownRole(role)
    ensures r == [] <==> isEmail(email) && KnownRole(role)
  {
    Join(EmailIssues(email, isEmail), RoleIssues(role))
  }

  /** A two-character title made of an emoji and a letter is long enough:
      it is three code units. */
  lemma EmojiTitleLongEnough()
    ensures TitleField !in Fields(TextIssues("\U{1F600}a", ""))
  {
    EmojiCountsTwice();
  }

  function NameIssues(name: string): (r: seq<Issue>)
    ensures Fields(r) == if JsLength(name) < 2 then {NameField} else {}
    ensures r == [] <==> JsLength(name) >= 2
  {
    Check(JsLength(name) < 2, NameField, "Name must be at least 2 characters")
  }

  function EmailIssues(email: string, isEmail: string -> bool): (r: seq<Issue>)
    ensures Fields(r) == if isEmail(email) then {} else {EmailField}
    ensures r == [] <==> isEmail(email)
  {
    Check(!isEmail(email), EmailField, "Invalid email address")
  }

  /** Issue lists are reported one after the other. */
  function Join(a: seq<Issue>, b: seq<Issue>): (r: seq<Issue>)
    ensures Fields(r) == Fields(a) + Fields(b)
    ensures r == [] <==> a == [] && b == []
    ensures |r| == |a| + |b|
  {
    FieldsAppend(a, b);
    a + b
  }
  /** The username's two checks run independently, so a short name with a
      bad character gets two issues. */
  function UsernameIssues(u: string): (r: seq<Issue>)
    ensures Fields(r) == if ValidUsername(u) then {} else {UsernameField}
    ensures r == [] <==> ValidUsername(u)
    ensures |r| == (if JsLength(u) < 3 then 1 else 0) + (if UsernamePattern(u) then 0 else 1)
  {
    var a := Check(JsLength(u) < 3, UsernameField, "Username must be at least 3 characters");
    var b := Check(!UsernamePattern(u), UsernameField, "Username can only contain letters, numbers, and underscores");
    FieldsAppend(a, b);
    a + b
  }

  /** A role was chosen and it is one of the three role names. */
  predicate KnownRole(role: Option<string>) {
    role.Some? && ParseRole(role.value).Some?
  }

  /** No role chosen is "required"; a role outside the list is an invalid enum value. */
  function RoleIssues(role: Option<string>): (r: seq<Issue>)
    ensures Fields(r) == if KnownRole(role) then {} else {RoleField}
    ensures r == [] <==> KnownRole(role)
    ensures role.None? ==> r == [Issue(RoleField, RoleRequired)]
  {
    if role.None? then [Issue(RoleField, RoleRequired)]
    else Check(ParseRole(role.value).None?, RoleField, InvalidEnum)
  }

  /** Submitting the user dialog. */
  function SubmitUser(v: UserValues, isEmail: string -> bool): (r: Result<UserUpdate, seq<Issue>>)
    ensures r.Success? <==> (JsLength(v.name) >= 2 && ValidUsername(v.username) && isEmail(v.email) && KnownRole(v.role))
    ensures r.Failure? ==> r.error == UserIssues(v, isEmail) && |r.error| > 0
    ensures r.Success? ==> (r.value.name == v.name && r.value.username == v.username && r.value.email == v.email
      && RoleName(r.value.role) == v.role.value)
  {
    var issues := UserIssues(v, isEmail);
    if issues != [] then Failure(issues)
    else Success(UserUpdate(v.name, v.username, v.email, ParseRole(v.role.value).value))
  }

  /** The form opened on a user: a missing or empty username becomes `""`. */
  function UserDefaults(u: UserRecord): (v: UserValues)
    ensures v.name == u.name && v.email == u.email && v.role == Some(RoleName(u.role))
    ensures u.username.None? || u.username.value == "" ==> v.username == ""
    ensures u.username.Some? ==> v.username == u.username.value
  {
    UserValues(u.name, match u.username case None => "" case Some(n) => n, u.email, Some(RoleName(u.role)))
  }

  /** A user without a username cannot be saved until one is typed in. */
  lemma MissingUsernameBlocksSave(u: UserRecord, isEmail: string -> bool)
    requires u.username.None?
    ensures SubmitUser(UserDefaults(u), isEmail).Failure?
    ensures |SubmitUser(UserDefaults(u), isEmail).error| >= 2
  {
    var v := UserDefaults(u);
    assert |UsernameIssues(v.username)| == 2;
  }

  /** Saving the user dialog untouched sends the user's own values back when they pass the schema. */
  lemma UntouchedUserRoundTrip(u: UserRecord, isEmail: string -> bool)
    requires u.username.Some? && ValidUsername(u.username.value) && JsLength(u.name) >= 2 && isEmail(u.email)
    ensures SubmitUser(UserDefaults(u), isEmail) == Success(UserUpdate(u.name, u.username.value, u.email, u.role))
  {
    NamesRoundTrip(u.role, High, Fixed);
  }
}

=== FILE: image_viewer.dfy ===
/** The full-size screenshot viewer on the bug page: zoom in quarter steps
    between one half and three, rotation in quarter turns, and the reset that
    reset, opening and closing all perform. Scales are exact reals; every
    reachable scale is a multiple of 0.25, which binary floating point
    represents exactly. */
module ImageViewer {
  import opened Base

  datatype Viewer = Viewer(selected: Option<string>, scale: real, rotation: int)

  const Initial: Viewer := Viewer(None, 1.0, 0)

  /** `scale` is a whole number of quarters. */
  predicate QuarterStep(s: real) {
    (s * 4.0).Floor as real == s * 4.0
  }

  /** What every reachable state satisfies. */
  predicate Valid(v: Viewer) {
    0.5 <= v.scale <= 3.0 && QuarterStep(v.scale)
    && (v.rotation == 0 || v.rotation == 90 || v.rotation == 180 || v.rotation == 270)
  }

  lemma InitialValid()
    ensures Valid(Initial)
  {
  }

  /** `Math.min(prev + 0.25, 3)`. */
  function ZoomIn(v: Viewer): (r: Viewer)
    ensures r == v.(scale := r.scale)
    ensures r.scale <= 3.0 && (r.scale == v.scale + 0.25 || r.scale == 3.0)
    ensures v.scale <= 2.75 ==> r.scale == v.scale + 0.25
    ensures Valid(v) ==> Valid(r)
  {
    var s := if v.scale + 0.25 < 3.0 then v.scale + 0.25 else 3.0;
    assert (v.scale + 0.25) * 4.0 == v.scale * 4.0 + 1.0;
    v.(scale := s)
  }

  /** `Math.max(prev - 0.25, 0.5)`. */
  function ZoomOut(v: Viewer): (r: Viewer)
    ensures r == v.(scale := r.scale)
    ensures r.scale >= 0.5 && (r.scale == v.scale - 0.25 || r.scale == 0.5)
    ensures v.scale >= 0.75 ==> r.scale == v.scale - 0.25
    ensures Valid(v) ==> Valid(r)
  {
    var s := if v.scale - 0.25 > 0.5 then v.scale - 0.25 else 0.5;
    assert (v.scale - 0.25) * 4.0 == v.scale * 4.0 - 1.0;
    v.(scale := s)
  }

  /** `(prev + 90) % 360`. The operand is never negative, so the remainder
      agrees with JavaScript's. */
  function Rotate(v: Viewer): (r: Viewer)
    ensures r == v.(rotation := r.rotation)
    ensures Valid(v) ==> Valid(r)
    ensures Valid(v) ==> r.rotation == if v.rotation == 270 then 0 else v.rotation + 90
  {
    v.(rotation := (v.rotation + 90) % 360)
  }

  /** Reset, opening an image and closing the viewer all return to scale 1, upright. */
  function Reset(v: Viewer): (r: Viewer)
    ensures r.scale == 1.0 && r.rotation == 0 && r.selected == v.selected
    ensures Valid(r)
  {
    v.(scale := 1.0, rotation := 0)
  }

  function Open(v: Viewer, path: string): (r: Viewer)
    ensures r == Viewer(Some(path), 1.0, 0) && Valid(r)
  {
    Viewer(Some(path), 1.0, 0)
  }

  function Close(v: Viewer): (r: Viewer)
    ensures r == Initial && Valid(r)
  {
    Initial
  }

  /** The zoom buttons' `disabled` flags. */
  predicate ZoomInDisabled(v: Viewer) {
    v.scale >= 3.0
  }

  predicate ZoomOutDisabled(v: Viewer) {
    v.scale <= 0.5
  }

  /** A button is disabled exactly when pressing it would change nothing. */
  lemma DisabledMeansNoEffect(v: Viewer)
    requires Valid(v)
    ensures ZoomInDisabled(v) <==> ZoomIn(v) == v
    ensures ZoomOutDisabled(v) <==> ZoomOut(v) == v
  {
  }

  /** Four quarter turns are the identity. */
  lemma FourRotations(v: Viewer)
    requires Valid(v)
    ensures Rotate(Rotate(Rotate(Rotate(v)))) == v
  {
  }

  /** What can happen to the viewer. The dialog's buttons are zoom in, zoom out
      and rotate; no control calls the reset handler, so `ResetPressed` is not a
      user action. It stays in the alphabet because `Reset` is the same change
      that opening and closing make, and including it only enlarges the set of
      runs `RunStaysValid` covers. */
  datatype Event = ZoomInPressed | ZoomOutPressed | RotatePressed | ResetPressed | Opened(path: string) | Closed

  function Step(v: Viewer, e: Event): Viewer {
    match e
    case ZoomInPressed => ZoomIn(v)
    case ZoomOutPressed => ZoomOut(v)
    case RotatePressed => Rotate(v)
    case ResetPressed => Reset(v)
    case Opened(p) => Open(v, p)
    case Closed => Close(v)
  }

  function Run(v: Viewer, es: seq<Event>): Viewer
    decreases |es|
  {
    if |es| == 0 then v else Run(Step(v, es[0]), es[1..])
  }

  /** From the initial state, any sequence of button presses keeps the scale
      within [0.5, 3] on a quarter step and the rotation a quarter turn. */
  lemma {:induction false} RunStaysValid(v: Viewer, es: seq<Event>)
    requires Valid(v)
    ensures Valid(Run(v, es))
    decreases |es|
  {
    if |es| > 0 {
      RunStaysValid(Step(v, es[0]), es[1..]);
    }
  }

  lemma ReachableValid(es: seq<Event>)
    ensures Valid(Run(Initial, es))
  {
    RunStaysValid(Initial, es);
  }
}

=== FILE: mock_store.dfy ===
/** The in-memory mock backend: users, projects, dashboards, bugs and an activity
    log, with login/registration against the user list and bug mutations that
    each prepend a derived activity record. The current-user slot lives in the
    shared browser storage under `current_user_id`. Simulated latency is not
    modelled: every operation is one synchronous transition. Ids come from the
    caller (a fresh-id oracle) and the clock is the `now` parameter. */
module MockStore {
  import opened Base
  import opened Types
  import opened Seqs
  import opened Strings
  import opened Storage

  datatype Store = Store(users: seq<User>, projects: seq<Project>, dashboards: seq<Dashboard>,
                         bugs: seq<Bug>, activities: seq<Activity>)

  /** The dashboards of project `pid`, in their original order. */
  function DashboardsOf(ds: seq<Dashboard>, pid: string): seq<Dashboard> {
    Filter(ds, (d: Dashboard) => d.projectId == pid)
  }

  /** Constructor step: every project's `dashboards` becomes exactly the
      dashboards that name it, in the order of the dashboard list; nothing else
      about a project changes. */
  function LinkDashboards(ps: seq<Project>, ds: seq<Dashboard>): (r: seq<Project>)
    ensures |r| == |ps|
    ensures forall i :: 0 <= i < |r| ==> r[i] == ps[i].(dashboards := r[i].dashboards)
    ensures forall i, j :: 0 <= i < |r| && 0 <= j < |r[i].dashboards| ==>
      r[i].dashboards[j] in ds && r[i].dashboards[j].projectId == ps[i].id
    ensures forall i, j :: 0 <= i < |r| && 0 <= j < |ds| && ds[j].projectId == ps[i].id ==>
      ds[j] in r[i].dashboards
    ensures forall i :: 0 <= i < |r| ==> IsSubseq(r[i].dashboards, ds)
  {
    if |ps| == 0 then []
    else
      var own := DashboardsOf(ds, ps[0].id);
      FilterIsSubseq(ds, (d: Dashboard) => d.projectId == ps[0].id);
      [ps[0].(dashboards := own)] + LinkDashboards(ps[1..], ds)
  }

  /** `new MockDataStore()` given the records it starts from. */
  function Create(users: seq<User>, projects: seq<Project>, dashboards: seq<Dashboard>,
                  bugs: seq<Bug>, activities: seq<Activity>): Store
  {
    Store(users, LinkDashboards(projects, dashboards), dashboards, bugs, activities)
  }

  // ----- authentication -----

  /** Token text `mock-token-<id>-<now>`. */
  function MockToken(userId: string, now: int): string {
    "mock-token-" + userId + "-" + IntToString(now)
  }

  /** What a successful login or registration resolves with, plus the storage
      it leaves behind. */
  datatype Granted = Granted(user: User, token: string, storage: Storage)

  predicate EmailMatches(u: User, email: string) {
    EqualsIgnoreCase(u.email, email)
  }

  predicate EmailTaken(users: seq<User>, email: string) {
    exists i :: 0 <= i < |users| && EmailMatches(users[i], email)
  }

  const InvalidCredentials: string := "Invalid email or password"
  const EmailExists: string := "User with this email already exists"

  /** `loginUser`: the first user whose email equals the input ignoring case is
      logged in when the password is non-empty or the input email mentions
      "demo". The password is never compared with anything. */
  function LoginUser(st: Store, ls: Storage, email: string, password: string, now: int): (r: Result<Granted, string>)
    ensures r.Success? <==> EmailTaken(st.users, email) && (password != "" || Contains(email, "demo"))
    ensures r.Success? ==> (exists i :: (0 <= i < |st.users| && st.users[i] == r.value.user
      && EmailMatches(st.users[i], email) && (forall j :: 0 <= j < i ==> !EmailMatches(st.users[j], email))))
    ensures r.Success? ==> r.value.storage == ls[CurrentUserKey := r.value.user.id]
    ensures r.Success? ==> r.value.token == MockToken(r.value.user.id, now)
    ensures r.Failure? ==> r.error == InvalidCredentials
  {
    match Find(st.users, (u: User) => EmailMatches(u, email))
    case Some(u) =>
      if password != "" || Contains(email, "demo") then
        Success(Granted(u, MockToken(u.id, now), SetItem(ls, CurrentUserKey, u.id)))
      else Failure(InvalidCredentials)
    case None => Failure(InvalidCredentials)
  }

  /** Whether the password is accepted never depends on its contents beyond being non-empty. */
  lemma PasswordNeverCompared(st: Store, ls: Storage, email: string, p1: string, p2: string, now: int)
    requires p1 != "" && p2 != ""
    ensures LoginUser(st, ls, email, p1, now) == LoginUser(st, ls, email, p2, now)
  {
  }

  /** The avatar URL of a registered user; the name is URI-encoded. */
  function AvatarUrl(name: string): string {
    "https://ui-avatars.com/api/?name=" + EncodeUriComponent(name) + "&background=random&color=fff"
  }

  datatype Registered = Registered(store: Store, granted: Granted)

  /** `registerUser`: refuses an email already present (ignoring case);
      otherwise appends exactly one user and makes it current. */
  function RegisterUser(st: Store, ls: Storage, email: string, password: string, name: string, role: Role,
                        freshId: string, now: int): (r: Result<Registered, string>)
    ensures r.Failure? <==> EmailTaken(st.users, email)
    ensures r.Failure? ==> r.error == EmailExists
    ensures r.Success? ==> var u := r.value.granted.user;
      && r.value.store == st.(users := st.users + [u])
      && u.id == freshId && u.email == email && u.name == name && u.role == role
      && u.avatar == Some(AvatarUrl(name))
      && r.value.granted.storage == ls[CurrentUserKey := freshId]
      && r.value.granted.token == MockToken(freshId, now)
  {
    if Find(st.users, (u: User) => EmailMatches(u, email)).Some? then Failure(EmailExists)
    else
      var u := User(freshId, name, email, role, Some(AvatarUrl(name)));
      Success(Registered(st.(users := st.users + [u]),
                         Granted(u, MockToken(freshId, now), SetItem(ls, CurrentUserKey, freshId))))
  }

  /** A user registered by name can never smuggle a query parameter into its avatar URL. */
  lemma AvatarNameIsEncoded(name: string)
    ensures forall i :: 0 <= i < |EncodeUriComponent(name)| ==>
      EncodeUriComponent(name)[i] != '&' && EncodeUriComponent(name)[i] != '='
  {
  }

  /** `getCurrentUser`: none when no id (or an empty one) is stored or the id
      names no user; otherwise the first user with that id. */
  function GetCurrentUser(st: Store, ls: Storage): (r: Option<User>)
    ensures r.None? <==> (CurrentUserKey !in ls || ls[CurrentUserKey] == ""
      || forall i :: 0 <= i < |st.users| ==> st.users[i].id != ls[CurrentUserKey])
    ensures r.Some? ==> r.value in st.users && r.value.id == ls[CurrentUserKey]
    ensures r.Some? ==> exists i :: (0 <= i < |st.users| && st.users[i] == r.value
      && forall j :: 0 <= j < i ==> st.users[j].id != ls[CurrentUserKey])
  {
    match GetItem(ls, CurrentUserKey)
    case None => None
    case Some(id) => if id == "" then None else Find(st.users, (u: User) => u.id == id)
  }

  /** `logout`: forgets the current-user id. */
  function Logout(ls: Storage): (r: Storage)
    ensures CurrentUserKey !in r
    ensures forall k :: k in ls && k != CurrentUserKey ==> k in r && r[k] == ls[k]
    ensures forall k :: k in r ==> k in ls
  {
    RemoveItem(ls, CurrentUserKey)
  }

  lemma LogoutForgetsUser(st: Store, ls: Storage)
    ensures GetCurrentUser(st, Logout(ls)).None?
  {
  }

  predicate UniqueUserIds(users: seq<User>) {
    forall i, j :: 0 <= i < j < |users| ==> users[i].id != users[j].id
  }

  /** With distinct user ids, the user a login returns is the one
      `getCurrentUser` reports afterwards (unless its id is empty, which
      `getCurrentUser` treats as no id at all). */
  lemma LoginThenCurrentUser(st: Store, ls: Storage, email: string, password: string, now: int)
    requires UniqueUserIds(st.users)
    requires LoginUser(st, ls, email, password, now).Success?
    ensures var g := LoginUser(st, ls, email, password, now).value;
      GetCurrentUser(st, g.storage) == if g.user.id == "" then None else Some(g.user)
  {
    var g := LoginUser(st, ls, email, password, now).value;
    var i :| 0 <= i < |st.users| && st.users[i] == g.user;
    if g.user.id != "" {
      var c := GetCurrentUser(st, g.storage);
      assert c.Some?;
      var k :| 0 <= k < |st.users| && st.users[k] == c.value;
      assert k == i;
    }
  }

  /** The id of the current user, or `""` when there is none. */
  function CurrentUserIdOrEmpty(st: Store, ls: Storage): string {
    match GetCurrentUser(st, ls)
    case Some(u) => u.id
    case None => ""
  }

  // ----- bugs and activities -----

  /** The fields a caller supplies to `addBug`; missing attachment lists default to empty. */
  datatype BugDraft = BugDraft(
    name: string,
    description: string,
    projectId: string,
    affectedDashboards: seq<string>,
    reporterId: string,
    assigneeId: Option<string>,
    priority: Priority,
    status: Status,
    screenshots: Option<seq<string>>,
    files: Option<seq<string>>)

  /** `addActivity`: prepends one log entry stamped with a fresh id and the clock. */
  function AddActivity(st: Store, kind: string, userId: string, description: string, projectId: string,
                       actId: string, now: int): (r: Store)
    ensures r == st.(activities := r.activities)
    ensures |r.activities| == |st.activities| + 1 && r.activities[1..] == st.activities
    ensures r.activities[0] == Activity(actId, kind, userId, description, projectId, now)
  {
    st.(activities := [Activity(actId, kind, userId, description, projectId, now)] + st.activities)
  }

  datatype Changed = Changed(store: Store, bug: Bug)

  function Quoted(s: string): string {
    "\"" + s + "\""
  }

  /** `addBug`: prepends the new bug (fresh id, created and updated now, other
      fields copied, attachments defaulting to empty) and a `bug_reported`
      activity by its reporter in its project. */
  function AddBug(st: Store, d: BugDraft, bugId: string, actId: string, now: int): (r: Changed)
    ensures var b := r.bug;
      && b.id == bugId && b.createdAt == now && b.updatedAt == now
      && b.name == d.name && b.description == d.description && b.projectId == d.projectId
      && b.affectedDashboards == d.affectedDashboards && b.reporterId == d.reporterId
      && b.assigneeId == d.assigneeId && b.priority == d.priority && b.status == d.status
      && b.screenshots == d.screenshots.GetOr([]) && b.files == d.files.GetOr([])
    ensures r.store.bugs == [r.bug] + st.bugs && |r.store.bugs| == |st.bugs| + 1
    ensures r.store.activities ==
      [Activity(actId, "bug_reported", d.reporterId, "Reported a new bug: " + Quoted(d.name), d.projectId, now)]
      + st.activities
    ensures r.store.users == st.users && r.store.projects == st.projects && r.store.dashboards == st.dashboards
  {
    var b := Bug(bugId, d.name, d.description, d.projectId, d.affectedDashboards, d.reporterId,
                 d.assigneeId, d.priority, d.status, now, now,
                 d.screenshots.GetOr([]), d.files.GetOr([]));
    var st1 := st.(bugs := [b] + st.bugs);
    Changed(AddActivity(st1, "bug_reported", d.reporterId, "Reported a new bug: " + Quoted(d.name),
                        d.projectId, actId, now), b)
  }

  const BugNotFound: string := "Bug not found"

  /** The verb the status activity uses. */
  function StatusAction(s: Status): string {
    match s
    case Fixed => "fixed"
    case Declined => "declined"
    case Pending => "updated status of"
  }

  /** The first position holding a bug with this id. */
  function IndexOfBug(bugs: seq<Bug>, bugId: string): (r: Option<nat>)
    ensures r.None? <==> forall i :: 0 <= i < |bugs| ==> bugs[i].id != bugId
    ensures r.Some? ==> (r.value < |bugs| && bugs[r.value].id == bugId
      && forall j :: 0 <= j < r.value ==> bugs[j].id != bugId)
  {
    FindIndex(bugs, (b: Bug) => b.id == bugId)
  }

  /** `updateBugStatus`: an unknown id fails with "Bug not found" and changes
      nothing; otherwise only the first bug with that id gets the new status
      and `updatedAt`, and one `bug_<status>` activity by the current user (or
      `""`) in the bug's project is prepended. */
  function UpdateBugStatus(st: Store, ls: Storage, bugId: string, status: Status, actId: string, now: int)
    : (r: Result<Changed, string>)
    ensures r.Failure? <==> forall i :: 0 <= i < |st.bugs| ==> st.bugs[i].id != bugId
    ensures r.Failure? ==> r.error == BugNotFound
    ensures r.Success? ==> (exists i :: (0 <= i < |st.bugs| && st.bugs[i].id == bugId
      && (forall j :: 0 <= j < i ==> st.bugs[j].id != bugId)
      && r.value.bug == st.bugs[i].(status := status, updatedAt := now)
      && r.value.store.bugs == st.bugs[i := r.value.bug]))
    ensures r.Success? ==> |r.value.store.bugs| == |st.bugs|
    ensures r.Success? ==> (r.value.store.activities ==
      [Activity(actId, "bug_" + StatusName(status), CurrentUserIdOrEmpty(st, ls),
                StatusAction(status) + " bug: " + Quoted(r.value.bug.name), r.value.bug.projectId, now)]
      + st.activities)
    ensures r.Success? ==> (r.value.store.users == st.users && r.value.store.projects == st.projects
      && r.value.store.dashboards == st.dashboards)
  {
    match IndexOfBug(st.bugs, bugId)
    case None => Failure(BugNotFound)
    case Some(i) =>
      var b := st.bugs[i].(status := status, updatedAt := now);
      var st1 := st.(bugs := st.bugs[i := b]);
      Success(Changed(AddActivity(st1, "bug_" + StatusName(status), CurrentUserIdOrEmpty(st, ls),
                                  StatusAction(status) + " bug: " + Quoted(b.name), b.projectId, actId, now), b))
  }

  /** `updateBugAssignee`: as `updateBugStatus`, but sets the assignee and logs `bug_assigned`. */
  function UpdateBugAssignee(st: Store, ls: Storage, bugId: string, assigneeId: string, actId: string, now: int)
    : (r: Result<Changed, string>)
    ensures r.Failure? <==> forall i :: 0 <= i < |st.bugs| ==> st.bugs[i].id != bugId
    ensures r.Failure? ==> r.error == BugNotFound
    ensures r.Success? ==> (exists i :: (0 <= i < |st.bugs| && st.bugs[i].id == bugId
      && (forall j :: 0 <= j < i ==> st.bugs[j].id != bugId)
      && r.value.bug == st.bugs[i].(assigneeId := Some(assigneeId), updatedAt := now)
      && r.value.store.bugs == st.bugs[i := r.value.bug]))
    ensures r.Success? ==> (r.value.store.activities ==
      [Activity(actId, "bug_assigned", CurrentUserIdOrEmpty(st, ls),
                "Assigned bug " + Quoted(r.value.bug.name) + " to a developer", r.value.bug.projectId, now)]
      + st.activities)
    ensures r.Success? ==> (r.value.store.users == st.users && r.value.store.projects == st.projects
      && r.value.store.dashboards == st.dashboards)
  {
    match IndexOfBug(st.bugs, bugId)
    case None => Failure(BugNotFound)
    case Some(i) =>
      var b := st.bugs[i].(assigneeId := Some(assigneeId), updatedAt := now);
      var st1 := st.(bugs := st.bugs[i := b]);
      Success(Changed(AddActivity(st1, "bug_assigned", CurrentUserIdOrEmpty(st, ls),
                                  "Assigned bug " + Quoted(b.name) + " to a developer", b.projectId, actId, now), b))
  }

  predicate UniqueBugIds(bugs: seq<Bug>) {
    forall i, j :: 0 <= i < j < |bugs| ==> bugs[i].id != bugs[j].id
  }

  /** A new bug with a fresh id keeps bug ids distinct. */
  lemma AddKeepsIdsUnique(st: Store, d: BugDraft, bugId: string, actId: string, now: int)
    requires UniqueBugIds(st.bugs)
    requires forall i :: 0 <= i < |st.bugs| ==> st.bugs[i].id != bugId
    ensures UniqueBugIds(AddBug(st, d, bugId, actId, now).store.bugs)
  {
    var added := AddBug(st, d, bugId, actId, now).store.bugs;
    forall i, j | 0 <= i < j < |added| ensures added[i].id != added[j].id {
      if i == 0 {
        assert added[j] == st.bugs[j - 1];
      } else {
        assert added[i] == st.bugs[i - 1] && added[j] == st.bugs[j - 1];
      }
    }
  }

  /** A status change keeps bug ids distinct: it rewrites one bug in place and keeps its id. */
  lemma StatusKeepsIdsUnique(st: Store, ls: Storage, id: string, status: Status, actId: string, now: int)
    requires UniqueBugIds(st.bugs)
    ensures UpdateBugStatus(st, ls, id, status, actId, now).Success? ==>
      UniqueBugIds(UpdateBugStatus(st, ls, id, status, actId, now).value.store.bugs)
  {
  }

  /** A reassignment keeps bug ids distinct: it rewrites one bug in place and keeps its id. */
  lemma AssigneeKeepsIdsUnique(st: Store, ls: Storage, id: string, assigneeId: string, actId: string, now: int)
    requires UniqueBugIds(st.bugs)
    ensures UpdateBugAssignee(st, ls, id, assigneeId, actId, now).Success? ==>
      UniqueBugIds(UpdateBugAssignee(st, ls, id, assigneeId, actId, now).value.store.bugs)
  {
  }
}

=== FILE: new_bug.dfy ===
/** The bug report form: its initial state, the checks on submit, the
    request payload, where a successful submit navigates to, removing an
    attachment, and when the submit button is disabled. */
module NewBug {
  import opened Base
  import opened Types
  import opened Strings
  import opened Seqs
  import opened Storage
  import opened ApiClient

  /** A chosen file; `preview` is its object URL when it is an image. */
  datatype Attachment = Attachment(fileName: string, preview: Option<string>)

  datatype Form = Form(name: string, description: string, projectId: string, priority: Priority,
                       screenshots: seq<Attachment>, files: seq<Attachment>, submitting: bool)

  /** The `projectId` query parameter, or the empty string when it is absent or empty. */
  function OrEmpty(s: Option<string>): (r: string)
    ensures Truthy(s) ==> r == s.value
    ensures !Truthy(s) ==> r == ""
  {
    if s.Some? then s.value else ""
  }

  /** The form as first shown: empty, medium priority, and the pre-selected project if any. */
  function InitialForm(preSelected: Option<string>): (f: Form)
    ensures f.name == "" && f.description == "" && f.screenshots == [] && f.files == [] && !f.submitting
    ensures f.priority == Medium
    ensures f.projectId == OrEmpty(preSelected)
  {
    Form("", "", OrEmpty(preSelected), Medium, [], [], false)
  }

  /** `location.state?.from || '/bugs'`. */
  function RedirectPath(from: Option<string>): (r: string)
    ensures Truthy(from) ==> r == from.value
    ensures !Truthy(from) ==> r == "/bugs"
    ensures r != ""
  {
    if Truthy(from) then from.value else "/bugs"
  }

  /** The multipart body sent to the backend. */
  datatype Payload = Payload(title: string, description: string, projectId: string, reporterId: string,
                             priority: Priority, status: string, screenshots: seq<Attachment>,
                             files: seq<Attachment>)

  const NameRequired: string := "Please enter a bug name"
  const ProjectRequired: string := "Please select a project"

  /** What pressing submit does: nothing without a user, an error before any
      request for a blank name and then for a missing project, else a request. */
  datatype Submit = Ignored | Rejected(message: string) | Send(payload: Payload)

  function HandleSubmit(user: Option<User>, f: Form): (r: Submit)
    ensures r.Ignored? <==> user.None?
    ensures r.Rejected? <==> user.Some? && (Trim(f.name) == "" || f.projectId == "")
    ensures user.Some? && Trim(f.name) == "" ==> r == Rejected(NameRequired)
    ensures r == Rejected(ProjectRequired) <==> user.Some? && Trim(f.name) != "" && f.projectId == ""
    ensures r.Send? ==> (r.payload.status == "pending" && r.payload.reporterId == user.value.id
      && r.payload.title == f.name && r.payload.description == f.description
      && r.payload.projectId == f.projectId && r.payload.priority == f.priority
      && r.payload.screenshots == f.screenshots && r.payload.files == f.files)
  {
    if user.None? then Ignored
    else if Trim(f.name) == "" then Rejected(NameRequired)
    else if f.projectId == "" then Rejected(ProjectRequired)
    else Send(Payload(f.name, f.description, f.projectId, user.value.id, f.priority, "pending", f.screenshots,
                      f.files))
  }

  /** A form left at its defaults is sent with medium priority and pending status. */
  lemma DefaultsReachPayload(u: User, preSelected: Option<string>, name: string)
    requires Trim(name) != "" && Truthy(preSelected)
    ensures var r := HandleSubmit(Some(u), InitialForm(preSelected).(name := name));
      r.Send? && r.payload.priority == Medium && r.payload.status == "pending"
      && r.payload.projectId == preSelected.value
  {
  }

  /** Where a successful submit goes: back to the pre-selected project, else to
      the dashboard when the form was opened from `/`, else to the bug list. */
  function SuccessRedirect(preSelected: Option<string>, from: Option<string>): (r: string)
    ensures Truthy(preSelected) ==> r == "/projects/" + preSelected.value
    ensures !Truthy(preSelected) && RedirectPath(from) == "/" ==> r == "/"
    ensures !Truthy(preSelected) && RedirectPath(from) != "/" ==> r == "/bugs"
  {
    if Truthy(preSelected) then "/projects/" + preSelected.value
    else if RedirectPath(from) == "/" then "/"
    else "/bugs"
  }

  /** Only three kinds of target are ever chosen, whatever the origin was. */
  lemma RedirectTargets(preSelected: Option<string>, from: Option<string>)
    ensures var r := SuccessRedirect(preSelected, from);
      r == "/" || r == "/bugs" || (|r| > 10 && r[..10] == "/projects/")
  {
  }

  /** The submit button. */
  predicate SubmitDisabled(f: Form) {
    f.submitting || f.projectId == ""
  }

  /** With the button enabled, a signed-in user's submit fails only on a blank name. */
  lemma EnabledSubmitSends(u: User, f: Form)
    requires !SubmitDisabled(f)
    ensures HandleSubmit(Some(u), f).Send? <==> Trim(f.name) != ""
  {
  }

  /** `removeScreenshot(i)`: exactly the `i`-th screenshot goes; the rest keep their order. */
  function RemoveScreenshot(f: Form, i: nat): (r: Form)
    requires i < |f.screenshots|
    ensures |r.screenshots| == |f.screenshots| - 1
    ensures forall j :: 0 <= j < i ==> r.screenshots[j] == f.screenshots[j]
    ensures forall j :: i <= j < |r.screenshots| ==> r.screenshots[j] == f.screenshots[j + 1]
    ensures r == f.(screenshots := r.screenshots)
  {
    f.(screenshots := RemoveAt(f.screenshots, i))
  }

  /** `removeFile(i)`: the same for the other attachments. */
  function RemoveFile(f: Form, i: nat): (r: Form)
    requires i < |f.files|
    ensures |r.files| == |f.files| - 1
    ensures forall j :: 0 <= j < i ==> r.files[j] == f.files[j]
    ensures forall j :: i <= j < |r.files| ==> r.files[j] == f.files[j + 1]
    ensures r == f.(files := r.files)
  {
    f.(files := RemoveAt(f.files, i))
  }

  /** `handleScreenshotChange`: the chosen files go after the ones already there. */
  function AddScreenshots(f: Form, chosen: seq<Attachment>): (r: Form)
    ensures |r.screenshots| == |f.screenshots| + |chosen|
    ensures r.screenshots[..|f.screenshots|] == f.screenshots && r.screenshots[|f.screenshots|..] == chosen
    ensures r == f.(screenshots := r.screenshots)
  {
    var r := f.(screenshots := f.screenshots + chosen);
    assert r.screenshots[..|f.screenshots|] == f.screenshots;
    r
  }

  /** `handleFileChange`: the same for the other attachments. */
  function AddFiles(f: Form, chosen: seq<Attachment>): (r: Form)
    ensures |r.files| == |f.files| + |chosen|
    ensures r.files[..|f.files|] == f.files && r.files[|f.files|..] == chosen
    ensures r == f.(files := r.files)
  {
    var r := f.(files := f.files + chosen);
    assert r.files[..|f.files|] == f.files;
    r
  }

  /** Removing a screenshot just added undoes the addition. */
  lemma RemoveUndoesAdd(f: Form, a: Attachment)
    ensures RemoveScreenshot(AddScreenshots(f, [a]), |f.screenshots|) == f
    ensures RemoveFile(AddFiles(f, [a]), |f.files|) == f
  {
    var g := AddScreenshots(f, [a]);
    assert RemoveScreenshot(g, |f.screenshots|).screenshots == f.screenshots;
    var h := AddFiles(f, [a]);
    assert RemoveFile(h, |f.files|).files == f.files;
  }

  /** Removing keeps every other attachment: adding back the removed one gives the original collection. */
  lemma RemoveScreenshotKeepsOthers(f: Form, i: nat)
    requires i < |f.screenshots|
    ensures multiset(RemoveScreenshot(f, i).screenshots) + multiset{f.screenshots[i]} == multiset(f.screenshots)
  {
  }

  /** The submit request's header as written: the token is read from the
      `token` key, and a missing value is rendered by the template literal as "null". */
  function SubmitAuthorizationAsWritten(ls: Storage): string {
    "Bearer " + match GetItem(ls, "token") case None => "null" case Some(t) => t
  }

  /** Signing in stores the token under `auth_token` only, so the submit
      request right after a sign-in carries "Bearer null". */
  lemma SubmitAfterSignInSendsNull(c: Client, ls: Storage, t: string)
    requires t != "" && "token" !in ls
    ensures SubmitAuthorizationAsWritten(SetToken(c, ls, Some(t)).storage) == "Bearer null"
  {
    assert GetItem(SetToken(c, ls, Some(t)).storage, "token") == GetItem(ls, "token");
  }

  /** The header read from the key the client writes. */
  function SubmitAuthorization(ls: Storage): (h: string)
    ensures GetItem(ls, AuthTokenKey).Some? ==> h == "Bearer " + ls[AuthTokenKey]
  {
    "Bearer " + match GetItem(ls, AuthTokenKey) case None => "null" case Some(t) => t
  }

  /** After a sign-in the corrected header carries the signed-in token. */
  lemma SubmitAfterSignInSendsToken(c: Client, ls: Storage, t: string)
    requires t != ""
    ensures SubmitAuthorization(SetToken(c, ls, Some(t)).storage) == "Bearer " + t
  {
  }
}

=== FILE: notifications.dfy ===
/** The notification preferences kept in storage under
    `notification_settings`: six flags, all on by default, saved as JSON text
    and read back on demand; and the sound played on a notification only when
    its flag is on. */
module Notifications {
  import opened Base
  import opened Strings
  import opened Storage

  datatype Settings = Settings(emailNotifications: bool, browserNotifications: bool, newBugNotifications: bool,
                               statusChangeNotifications: bool, mentionNotifications: bool,
                               notificationSound: bool)

  /** What is used while nothing (or the empty string) is stored. */
  const Defaults: Settings := Settings(true, true, true, true, true, true)

  /** The property names, in the order `JSON.stringify` writes them. */
  const Keys: seq<string> := ["emailNotifications", "browserNotifications", "newBugNotifications",
                              "statusChangeNotifications", "mentionNotifications", "notificationSound"]

  function ToFlags(s: Settings): (fs: seq<bool>)
    ensures |fs| == |Keys|
  {
    [s.emailNotifications, s.browserNotifications, s.newBugNotifications, s.statusChangeNotifications,
     s.mentionNotifications, s.notificationSound]
  }

  function FromFlags(fs: seq<bool>): Settings
    requires |fs| == |Keys|
  {
    Settings(fs[0], fs[1], fs[2], fs[3], fs[4], fs[5])
  }

  /** `"key":true` or `"key":false`. */
  function Member(k: string, v: bool): string {
    "\"" + k + "\":" + (if v then "true" else "false")
  }

  /** The members, comma-separated. */
  function Members(ks: seq<string>, vs: seq<bool>): string
    requires |ks| == |vs| > 0
    decreases |ks|
  {
    if |ks| == 1 then Member(ks[0], vs[0]) else Member(ks[0], vs[0]) + "," + Members(ks[1..], vs[1..])
  }

  /** A JSON object whose members are `ks` with values `vs`, in order, without whitespace. */
  function Wrap(ks: seq<string>, vs: seq<bool>): (t: string)
    requires |ks| == |vs| > 0
    ensures |t| >= 2 && t[0] == '{' && t[|t| - 1] == '}'
  {
    "{" + Members(ks, vs) + "}"
  }

  /** Reads the member named `k` at the start of `s`: its value and the text after it. */
  function ReadMember(s: string, k: string): (r: Option<(bool, string)>)
    ensures r.Some? ==> s == Member(k, r.value.0) + r.value.1
  {
    var t := Member(k, true);
    var f := Member(k, false);
    if IsPrefix(t, s) then
      assert s == s[..|t|] + s[|t|..];
      Some((true, s[|t|..]))
    else if IsPrefix(f, s) then
      assert s == s[..|f|] + s[|f|..];
      Some((false, s[|f|..]))
    else None
  }

  /** Reads the members named `ks`, in that order, comma-separated, filling all of `s`. */
  function ReadMembers(s: string, ks: seq<string>): (r: Option<seq<bool>>)
    requires |ks| > 0
    ensures r.Some? ==> |r.value| == |ks| && s == Members(ks, r.value)
    decreases |ks|
  {
    match ReadMember(s, ks[0])
    case None => None
    case Some((v, rest)) =>
      if |ks| == 1 then (if rest == "" then Some([v]) else None)
      else if |rest| > 0 && rest[0] == ',' then
        match ReadMembers(rest[1..], ks[1..])
        case None => None
        case Some(vs) =>
          assert ([v] + vs)[1..] == vs;
          assert rest == "," + rest[1..];
          Some([v] + vs)
      else None
  }

  /** Reads an object written by `Wrap` with the same keys. */
  function Unwrap(t: string, ks: seq<string>): (r: Option<seq<bool>>)
    requires |ks| > 0
    ensures r.Some? ==> |r.value| == |ks| && Wrap(ks, r.value) == t
  {
    if |t| >= 2 && t[0] == '{' && t[|t| - 1] == '}' then
      Braced(t);
      ReadMembers(t[1..|t| - 1], ks)
    else None
  }

  lemma Braced(t: string)
    requires |t| >= 2 && t[0] == '{' && t[|t| - 1] == '}'
    ensures t == "{" + t[1..|t| - 1] + "}"
  {
  }

  /** A member is read back as written, whatever follows it. */
  lemma ReadMemberOf(k: string, v: bool, tail: string)
    ensures ReadMember(Member(k, v) + tail, k) == Some((v, tail))
  {
    var s := Member(k, v) + tail;
    var t := Member(k, true);
    if v {
      assert s[..|t|] == t;
      assert s[|t|..] == tail;
    } else {
      var f := Member(k, false);
      assert t[|k| + 3] == 't' && s[|k| + 3] == 'f';
      assert !IsPrefix(t, s);
      assert s[..|f|] == f;
      assert s[|f|..] == tail;
    }
  }

  lemma {:induction false} ReadMembersOf(ks: seq<string>, vs: seq<bool>)
    requires |ks| == |vs| > 0
    ensures ReadMembers(Members(ks, vs), ks) == Some(vs)
    decreases |ks|
  {
    var s := Members(ks, vs);
    if |ks| == 1 {
      assert s == Member(ks[0], vs[0]) + "";
      ReadMemberOf(ks[0], vs[0], "");
      assert vs == [vs[0]];
    } else {
      var tail := Members(ks[1..], vs[1..]);
      var rest := "," + tail;
      assert s == Member(ks[0], vs[0]) + rest;
      ReadMemberOf(ks[0], vs[0], rest);
      assert rest[1..] == tail;
      ReadMembersOf(ks[1..], vs[1..]);
      assert [vs[0]] + vs[1..] == vs;
    }
  }

  /** Reading what was written gives the values back. */
  lemma UnwrapWrap(ks: seq<string>, vs: seq<bool>)
    requires |ks| == |vs| > 0
    ensures Unwrap(Wrap(ks, vs), ks) == Some(vs)
  {
    var t := Wrap(ks, vs);
    assert t[1..|t| - 1] == Members(ks, vs);
    ReadMembersOf(ks, vs);
  }

  /** `JSON.stringify(settings)`. */
  function Encode(s: Settings): (t: string)
    ensures |t| >= 2 && t[0] == '{' && t[|t| - 1] == '}'
  {
    Wrap(Keys, ToFlags(s))
  }

  /** `JSON.parse` of the stored text, for the layout `Encode` writes; any other text is a parse error. */
  function Decode(t: string): (r: Option<Settings>)
    ensures r.Some? ==> Encode(r.value) == t
  {
    match Unwrap(t, Keys)
    case None => None
    case Some(fs) =>
      RoundFlags(fs);
      Some(FromFlags(fs))
  }

  lemma RoundFlags(fs: seq<bool>)
    requires |fs| == |Keys|
    ensures ToFlags(FromFlags(fs)) == fs
  {
  }

  /** Decoding what was encoded gives the settings back. */
  lemma DecodeEncode(s: Settings)
    ensures Decode(Encode(s)) == Some(s)
  {
    var fs := ToFlags(s);
    DecodeWrapped(fs);
    FlagsRound(s);
  }

  lemma DecodeWrapped(fs: seq<bool>)
    requires |fs| == |Keys|
    ensures Decode(Wrap(Keys, fs)) == Some(FromFlags(fs))
  {
    UnwrapWrap(Keys, fs);
  }

  lemma FlagsRound(s: Settings)
    ensures FromFlags(ToFlags(s)) == s
  {
  }

  /** `saveSettings`. */
  function Save(ls: Storage, s: Settings): (r: Storage)
    ensures NotificationKey in r && Decode(r[NotificationKey]) == Some(s)
    ensures forall k :: k != NotificationKey ==> GetItem(r, k) == GetItem(ls, k)
  {
    DecodeEncode(s);
    SetItem(ls, NotificationKey, Encode(s))
  }

  const ParseError: string := "SyntaxError"

  /** `getSettings`: the defaults while nothing (or `""`) is stored, else the
      parsed text; text that does not parse raises. It reads storage and
      returns no new storage, so it changes nothing. */
  function GetSettings(ls: Storage): (r: Result<Settings, string>)
    ensures GetItem(ls, NotificationKey).None? ==> r == Success(Defaults)
    ensures NotificationKey in ls && ls[NotificationKey] == "" ==> r == Success(Defaults)
    ensures r.Failure? ==> r.error == ParseError
    ensures (NotificationKey in ls && ls[NotificationKey] != "" && r.Success?) ==>
      Encode(r.value) == ls[NotificationKey]
  {
    match GetItem(ls, NotificationKey)
    case None => Success(Defaults)
    case Some(t) =>
      if t == "" then Success(Defaults)
      else match Decode(t)
        case None => Failure(ParseError)
        case Some(s) => Success(s)
  }

  /** Saving then reading returns what was saved. */
  lemma SaveThenGet(ls: Storage, s: Settings)
    ensures GetSettings(Save(ls, s)) == Success(s)
  {
  }

  /** `playNotificationSound`: playback is attempted exactly when the settings
      read successfully and the sound flag is on. */
  predicate PlaysSound(ls: Storage) {
    GetSettings(ls).Success? && GetSettings(ls).value.notificationSound
  }

  lemma SoundFollowsSavedFlag(ls: Storage, s: Settings)
    ensures PlaysSound(Save(ls, s)) <==> s.notificationSound
  {
    SaveThenGet(ls, s);
  }

  /** With nothing stored the sound plays, since every flag defaults to on. */
  lemma SoundOnByDefault(ls: Storage)
    requires NotificationKey !in ls
    ensures PlaysSound(ls)
  {
    assert GetItem(ls, NotificationKey).None?;
  }
}

=== FILE: overview.dfy ===
/** The dashboard page: the role-scoped bug list, its title, the four
    summary cards, the five most recent bugs, and the priority-by-status
    chart of the BugStats component. */
module Overview {
  import opened Base
  import opened Types
  import opened Seqs
  import opened BugList

  function StatusIs(s: Status): Bug -> bool {
    (b: Bug) => b.status == s
  }

  function PriorityIs(p: Priority): Bug -> bool {
    (b: Bug) => b.priority == p
  }

  function CellIs(p: Priority, s: Status): Bug -> bool {
    (b: Bug) => b.priority == p && b.status == s
  }

  /** `bugs.filter(b => b.status === s).length`. */
  function CountStatus(bugs: seq<Bug>, s: Status): nat {
    |Filter(bugs, StatusIs(s))|
  }

  /** The three status counts of a list add up to its length. */
  lemma {:induction false} StatusCountsPartition(bugs: seq<Bug>)
    ensures CountStatus(bugs, Pending) + CountStatus(bugs, Fixed) + CountStatus(bugs, Declined) == |bugs|
  {
    if |bugs| > 0 {
      StatusCountsPartition(bugs[1..]);
    }
  }

  /** The first character of a role's name in upper case. */
  function Capitalized(s: string): string {
    if |s| > 0 && 'a' <= s[0] <= 'z' then [(s[0] as int - 32) as char] + s[1..] else s
  }

  /** The page heading: "Admin Dashboard", "Developer Dashboard", and
      "Tester Dashboard" for everyone else, a signed-out visitor included. */
  function Title(user: Option<User>): (t: string)
    ensures user.None? ==> t == "Tester Dashboard"
  {
    var who := if user.Some? && user.value.role == Admin then "Admin"
               else if user.Some? && user.value.role == Developer then "Developer"
               else "Tester";
    who + " Dashboard"
  }

  /** A signed-in user's heading names their role, capitalised. */
  lemma TitleNamesRole(u: User)
    ensures Title(Some(u)) == Capitalized(RoleName(u.role)) + " Dashboard"
  {
    match u.role
    case Admin =>
      assert Capitalized("admin") == "Admin";
    case Developer =>
      assert Capitalized("developer") == "Developer";
    case Tester =>
      assert Capitalized("tester") == "Tester";
  }

  /** One row of the chart. */
  datatype StatRow = StatRow(name: string, fixed: nat, pending: nat, declined: nat)

  function Cell(bugs: seq<Bug>, p: Priority, s: Status): nat {
    |Filter(bugs, CellIs(p, s))|
  }

  function Row(bugs: seq<Bug>, p: Priority): StatRow {
    StatRow(PriorityDisplay(p), Cell(bugs, p, Fixed), Cell(bugs, p, Pending), Cell(bugs, p, Declined))
  }

  function PriorityDisplay(p: Priority): string {
    match p
    case High => "High"
    case Medium => "Medium"
    case Low => "Low"
  }

  function RowTotal(r: StatRow): nat {
    r.fixed + r.pending + r.declined
  }

  /** The cell of a row in the column of status `s`. */
  function CellOf(r: StatRow, s: Status): nat {
    match s
    case Fixed => r.fixed
    case Pending => r.pending
    case Declined => r.declined
  }

  /** A row counts the bugs of its priority. */
  lemma {:induction false} RowCountsPriority(bugs: seq<Bug>, p: Priority)
    ensures RowTotal(Row(bugs, p)) == |Filter(bugs, PriorityIs(p))|
  {
    if |bugs| > 0 {
      RowCountsPriority(bugs[1..], p);
    }
  }

  /** The three priority counts of a list add up to its length. */
  lemma {:induction false} PriorityCountsPartition(bugs: seq<Bug>)
    ensures |Filter(bugs, PriorityIs(High))| + |Filter(bugs, PriorityIs(Medium))| + |Filter(bugs, PriorityIs(Low))|
      == |bugs|
  {
    if |bugs| > 0 {
      PriorityCountsPartition(bugs[1..]);
    }
  }

  /** The nine cells split the list: each row counts the bugs of its priority,
      the rows together count every bug. */
  lemma CellsPartition(bugs: seq<Bug>)
    ensures forall p :: RowTotal(Row(bugs, p)) == |Filter(bugs, PriorityIs(p))|
    ensures RowTotal(Row(bugs, High)) + RowTotal(Row(bugs, Medium)) + RowTotal(Row(bugs, Low)) == |bugs|
  {
    forall p ensures RowTotal(Row(bugs, p)) == |Filter(bugs, PriorityIs(p))| {
      RowCountsPriority(bugs, p);
    }
    PriorityCountsPartition(bugs);
  }

  /** The chart data: one row per priority, high first; each cell counts the
      bugs with that row's priority and that column's status, each row adds up
      to the bugs of its priority and the whole chart to the list's length. */
  function Chart(bugs: seq<Bug>): (rows: seq<StatRow>)
    ensures |rows| == 3
    ensures rows[0].name == "High" && rows[1].name == "Medium" && rows[2].name == "Low"
    ensures forall p, s :: CellOf(rows[PriorityIndex(p)], s) == |Filter(bugs, CellIs(p, s))|
    ensures RowTotal(rows[0]) == |Filter(bugs, PriorityIs(High))|
    ensures RowTotal(rows[1]) == |Filter(bugs, PriorityIs(Medium))|
    ensures RowTotal(rows[2]) == |Filter(bugs, PriorityIs(Low))|
    ensures RowTotal(rows[0]) + RowTotal(rows[1]) + RowTotal(rows[2]) == |bugs|
  {
    CellsPartition(bugs);
    RowCells(bugs);
    var rows := [Row(bugs, High), Row(bugs, Medium), Row(bugs, Low)];
    assert forall p :: rows[PriorityIndex(p)] == Row(bugs, p);
    rows
  }

  /** Each column of a row holds the count of its own status. */
  lemma RowCells(bugs: seq<Bug>)
    ensures forall p, s :: CellOf(Row(bugs, p), s) == |Filter(bugs, CellIs(p, s))|
  {
  }

  function PriorityIndex(p: Priority): (k: nat)
    ensures k < 3
  {
    match p
    case High => 0
    case Medium => 1
    case Low => 2
  }

  function StatusIndex(s: Status): nat {
    match s
    case Fixed => 0
    case Pending => 1
    case Declined => 2
  }

  function Slot(p: Priority, s: Status): (k: nat)
    ensures k < 9
  {
    3 * PriorityIndex(p) + StatusIndex(s)
  }

  /** One more bug adds one to its own cell and nothing to the others. */
  lemma CellSnoc(xs: seq<Bug>, b: Bug, p: Priority, s: Status)
    ensures Cell(xs + [b], p, s) == Cell(xs, p, s) + (if p == b.priority && s == b.status then 1 else 0)
  {
    FilterAppend(xs, [b], CellIs(p, s));
  }

  /** The row for `p` read off the nine counters. */
  function RowOf(c: seq<nat>, p: Priority): StatRow
    requires |c| == 9
  {
    StatRow(PriorityDisplay(p), c[Slot(p, Fixed)], c[Slot(p, Pending)], c[Slot(p, Declined)])
  }

  /** The chart in one pass over the list, one counter per cell; it builds
      exactly the rows of `Chart`. */
  method TallyStats(bugs: seq<Bug>) returns (rows: seq<StatRow>)
    ensures rows == Chart(bugs)
  {
    var c: seq<nat> := [0, 0, 0, 0, 0, 0, 0, 0, 0];
    var i := 0;
    while i < |bugs|
      invariant i <= |bugs| && |c| == 9
      invariant forall p, s :: c[Slot(p, s)] == Cell(bugs[..i], p, s)
    {
      var b := bugs[i];
      assert bugs[..i + 1] == bugs[..i] + [b];
      forall p, s ensures Cell(bugs[..i + 1], p, s) == Cell(bugs[..i], p, s) + (if p == b.priority && s == b.status then 1 else 0) {
        CellSnoc(bugs[..i], b, p, s);
      }
      var k := Slot(b.priority, b.status);
      c := c[k := c[k] + 1];
      i := i + 1;
    }
    assert bugs[..i] == bugs;
    assert forall p :: RowOf(c, p) == Row(bugs, p);
    rows := [RowOf(c, High), RowOf(c, Medium), RowOf(c, Low)];
  }

  /** Everything the dashboard shows. The total card counts the role-scoped
      list, not every bug, and the project card counts every project. */
  datatype Summary = Summary(title: string, total: nat, projectCount: nat, pending: nat, fixed: nat,
                             declined: nat, recent: seq<Bug>, chart: seq<StatRow>)

  /** The first five bugs of the user's list. */
  function Recent(bugs: seq<Bug>, user: Option<User>): (r: seq<Bug>)
    ensures |r| == if |RoleScope(bugs, user)| < 5 then |RoleScope(bugs, user)| else 5
    ensures r == RoleScope(bugs, user)[..|r|]
    ensures forall i :: 0 <= i < |r| ==> r[i] in bugs && InScope(user, r[i])
  {
    var relevant := RoleScope(bugs, user);
    var r := Take(relevant, 5);
    SubseqMembers(relevant, bugs);
    assert forall i :: 0 <= i < |r| ==> r[i] == relevant[i];
    r
  }

  function Dashboard(bugs: seq<Bug>, projects: seq<Project>, user: Option<User>): (d: Summary)
    ensures d.title == Title(user)
    ensures d.total == |RoleScope(bugs, user)|
    ensures d.pending == CountStatus(RoleScope(bugs, user), Pending)
    ensures d.fixed == CountStatus(RoleScope(bugs, user), Fixed)
    ensures d.declined == CountStatus(RoleScope(bugs, user), Declined)
    ensures d.recent == Recent(bugs, user)
    ensures d.chart == Chart(RoleScope(bugs, user))
    ensures d.pending + d.fixed + d.declined == d.total
    ensures d.total <= |bugs| && d.projectCount == |projects|
    ensures |d.recent| <= 5 && |d.recent| == (if d.total < 5 then d.total else 5)
    ensures forall i :: 0 <= i < |d.recent| ==> d.recent[i] in bugs && InScope(user, d.recent[i])
    ensures |d.chart| == 3 && RowTotal(d.chart[0]) + RowTotal(d.chart[1]) + RowTotal(d.chart[2]) == d.total
  {
    var relevant := RoleScope(bugs, user);
    StatusCountsPartition(relevant);
    SubseqLength(relevant, bugs);
    var recent := Recent(bugs, user);
    Summary(Title(user), |relevant|, |projects|, CountStatus(relevant, Pending), CountStatus(relevant, Fixed),
            CountStatus(relevant, Declined), recent, Chart(relevant))
  }
}

=== FILE: project_pages.dfy ===
/** The projects page (search and per-project counts) and the project
    details page (lookup, status cards, recent bugs, per-dashboard counts). */
module ProjectPages {
  import opened Base
  import opened Types
  import opened Strings
  import opened Seqs
  import opened BugQueries
  import opened Overview

  /** Case-insensitive search over a project's name and description. */
  predicate ProjectMatches(p: Project, q: string) {
    ContainsIgnoreCase(p.name, q) || ContainsIgnoreCase(p.description, q)
  }

  function ProjectMatchesFn(q: string): Project -> bool {
    (p: Project) => ProjectMatches(p, q)
  }

  /** The projects the search box lets through, in order. */
  function SearchProjects(ps: seq<Project>, q: string): (r: seq<Project>)
    ensures IsSubseq(r, ps)
    ensures forall i :: 0 <= i < |ps| ==> (ps[i] in r <==> ProjectMatches(ps[i], q))
  {
    FilterIsSubseq(ps, ProjectMatchesFn(q));
    Filter(ps, ProjectMatchesFn(q))
  }

  /** The empty search lists every project. */
  lemma EmptySearchListsAll(ps: seq<Project>)
    ensures SearchProjects(ps, "") == ps
  {
    forall i | 0 <= i < |ps| ensures ProjectMatches(ps[i], "") {
      assert Lower("") == "";
      ContainsEmpty(Lower(ps[i].name));
    }
    FilterKeepsAll(ps, ProjectMatchesFn(""));
  }

  /** A project card: the project, its bug count and its pending count. */
  datatype ProjectCard = ProjectCard(project: Project, bugCount: nat, pendingCount: nat)

  function Card(p: Project, bugs: seq<Bug>): (c: ProjectCard)
    ensures c.project == p
    ensures c.bugCount == |BugsByProject(bugs, p.id)|
    ensures c.pendingCount == CountStatus(BugsByProject(bugs, p.id), Pending)
    ensures c.pendingCount <= c.bugCount <= |bugs|
    ensures c.bugCount == 0 ==> forall i :: 0 <= i < |bugs| ==> bugs[i].projectId != p.id
  {
    var mine := BugsByProject(bugs, p.id);
    StatusCountsPartition(mine);
    ProjectCard(p, |mine|, CountStatus(mine, Pending))
  }

  /** The cards the projects page shows, one per matching project, in order. */
  function Cards(ps: seq<Project>, bugs: seq<Bug>, q: string): (r: seq<ProjectCard>)
    ensures |r| == |SearchProjects(ps, q)|
    ensures forall i :: 0 <= i < |r| ==> r[i].project in ps && ProjectMatches(r[i].project, q)
    ensures forall i :: 0 <= i < |r| ==> r[i] == Card(SearchProjects(ps, q)[i], bugs)
    ensures forall i :: 0 <= i < |r| ==> r[i].pendingCount <= r[i].bugCount
  {
    var shown := SearchProjects(ps, q);
    seq(|shown|, i requires 0 <= i < |shown| => Card(shown[i], bugs))
  }

  /** `Math.round(part / (total || 1) * 100)`, in exact arithmetic: the
      nearest whole percentage, halves rounded up. */
  function Percent(part: nat, total: nat): (r: nat)
    ensures part <= total ==> r <= 100
    ensures part == 0 ==> r == 0
    ensures 0 < total && part == total ==> r == 100
    ensures var d := if total == 0 then 1 else total; 2 * d * r <= 200 * part + d < 2 * d * (r + 1)
  {
    var d := if total == 0 then 1 else total;
    PercentFacts(part, d);
    (200 * part + d) / (2 * d)
  }

  lemma PercentFacts(part: nat, d: nat)
    requires d > 0
    ensures var r := (200 * part + d) / (2 * d);
      && 2 * d * r <= 200 * part + d < 2 * d * (r + 1)
      && (part <= d ==> r <= 100)
      && (part == 0 ==> r == 0)
      && (part == d ==> r == 100)
  {
    var r := (200 * part + d) / (2 * d);
    DivBounds(200 * part + d, 2 * d);
    if part <= d && r > 100 {
      MulMono(101, r, 2 * d);
    }
    if part == 0 && r > 0 {
      MulMono(1, r, 2 * d);
    }
    if part == d && r < 100 {
      MulMono(r + 1, 100, 2 * d);
    }
  }

  lemma DivBounds(x: nat, y: nat)
    requires y > 0
    ensures y * (x / y) <= x < y * (x / y + 1)
  {
  }

  lemma MulMono(a: nat, b: nat, c: nat)
    requires a <= b
    ensures a * c <= b * c
  {
  }

  /** The details page: the project with the route's id (an absent parameter
      looks up `""`), or the not-found screen. */
  datatype Details =
    | NotFound
    | Found(project: Project, total: nat, pending: nat, fixed: nat, declined: nat,
            recent: seq<Bug>, chart: seq<StatRow>, dashboardCounts: seq<nat>)

  /** `projectBugs.filter(b => b.affectedDashboards.includes(dashboardId)).length`. */
  function RelatedCount(projectBugs: seq<Bug>, dashboardId: string): (n: nat)
    ensures n <= |projectBugs|
    ensures n == 0 <==> forall i :: 0 <= i < |projectBugs| ==> dashboardId !in projectBugs[i].affectedDashboards
  {
    NoneRelated(projectBugs, dashboardId);
    |Filter(projectBugs, Affects(dashboardId))|
  }

  lemma NoneRelated(projectBugs: seq<Bug>, dashboardId: string)
    ensures |Filter(projectBugs, Affects(dashboardId))| == 0 <==>
      forall i :: 0 <= i < |projectBugs| ==> dashboardId !in projectBugs[i].affectedDashboards
  {
    var related := Filter(projectBugs, Affects(dashboardId));
    if |related| > 0 {
      assert Affects(dashboardId)(related[0]);
      assert related[0] in projectBugs;
    }
  }

  function Affects(dashboardId: string): Bug -> bool {
    (b: Bug) => dashboardId in b.affectedDashboards
  }

  /** The page for a project that was found: the status cards, the chart and
      the five most recent bugs of the project's bugs, and one related-bug
      count per dashboard of the project. */
  function DetailsOf(p: Project, bugs: seq<Bug>): (d: Details)
    ensures d.Found? && d.project == p
    ensures d.total == |BugsByProject(bugs, p.id)|
    ensures d.pending == CountStatus(BugsByProject(bugs, p.id), Pending)
    ensures d.fixed == CountStatus(BugsByProject(bugs, p.id), Fixed)
    ensures d.declined == CountStatus(BugsByProject(bugs, p.id), Declined)
    ensures d.pending + d.fixed + d.declined == d.total
    ensures |d.recent| == (if d.total < 5 then d.total else 5) && d.recent == BugsByProject(bugs, p.id)[..|d.recent|]
    ensures d.chart == Chart(BugsByProject(bugs, p.id))
    ensures |d.dashboardCounts| == |p.dashboards|
    ensures forall i :: 0 <= i < |p.dashboards| ==>
      d.dashboardCounts[i] == RelatedCount(BugsByProject(bugs, p.id), p.dashboards[i].id)
  {
    var mine := BugsByProject(bugs, p.id);
    StatusCountsPartition(mine);
    Found(p, |mine|, CountStatus(mine, Pending), CountStatus(mine, Fixed), CountStatus(mine, Declined),
          Take(mine, 5), Chart(mine), RelatedCounts(mine, p.dashboards))
  }

  /** One related-bug count per dashboard, in the dashboards' order. */
  function RelatedCounts(projectBugs: seq<Bug>, ds: seq<Dashboard>): (r: seq<nat>)
    ensures |r| == |ds|
    ensures forall i :: 0 <= i < |ds| ==> r[i] == RelatedCount(projectBugs, ds[i].id)
  {
    seq(|ds|, i requires 0 <= i < |ds| => RelatedCount(projectBugs, ds[i].id))
  }

  function ProjectDetails(ps: seq<Project>, bugs: seq<Bug>, projectId: Option<string>): (d: Details)
    ensures d.NotFound? <==> forall i :: 0 <= i < |ps| ==> ps[i].id != projectId.GetOr("")
    ensures d.Found? ==> ProjectById(ps, projectId.GetOr("")) == Some(d.project)
    ensures d.Found? ==> d.project in ps && d.project.id == projectId.GetOr("")
    ensures d.Found? ==> d == DetailsOf(d.project, bugs)
  {
    match ProjectById(ps, projectId.GetOr(""))
    case None => NotFound
    case Some(p) => DetailsOf(p, bugs)
  }
}

=== FILE: routes.dfy ===
/** The application's route table and the protected-route gate. A path is given
    as its list of non-empty segments (`/bugs/new` is `["bugs", "new"]`); the
    table's required roles are role strings, compared with the current user's
    role name as the gate does. */
module Routes {
  import opened Base
  import opened Types

  datatype Page =
    | LoginPage | DashboardPage | ProjectsPage | ProjectDetailsPage(projectId: string)
    | BugsPage | BugDetailsPage(bugId: string) | NewBugPage | ActivityPage
    | UsersPage | SettingsPage | NotFoundPage

  datatype Route =
    | RedirectRoute(target: string)
    | PublicRoute(page: Page)
    | GuardedRoute(page: Page, requiredRoles: seq<string>)

  /** The table: `/` redirects to the dashboard; `/login` and unmatched paths are
      public; `/bugs/new` needs admin or tester, `/users` and `/settings` need
      admin, every other page only needs a signed-in user. A static segment
      (`new`) wins over a parameter (`:bugId`). */
  function Match(path: seq<string>): (r: Route)
    ensures path == [] <==> r == RedirectRoute("/dashboard")
    ensures r.GuardedRoute? && r.requiredRoles == ["admin", "tester"] <==> path == ["bugs", "new"]
    ensures r.GuardedRoute? && r.requiredRoles == ["admin"] <==> path == ["users"] || path == ["settings"]
    ensures r == PublicRoute(LoginPage) <==> path == ["login"]
    ensures r.GuardedRoute? ==> r.page != NotFoundPage && r.page != LoginPage
    ensures r.GuardedRoute? && r.page == NewBugPage ==> r.requiredRoles == ["admin", "tester"]
    ensures r.GuardedRoute? && (r.page == UsersPage || r.page == SettingsPage) ==> r.requiredRoles == ["admin"]
    ensures path == ["dashboard"] ==> r == GuardedRoute(DashboardPage, [])
    ensures path == ["projects"] ==> r == GuardedRoute(ProjectsPage, [])
    ensures |path| == 2 && path[0] == "projects" ==> r == GuardedRoute(ProjectDetailsPage(path[1]), [])
    ensures path == ["bugs"] ==> r == GuardedRoute(BugsPage, [])
    ensures |path| == 2 && path[0] == "bugs" && path[1] != "new" ==> r == GuardedRoute(BugDetailsPage(path[1]), [])
    ensures path == ["activity"] ==> r == GuardedRoute(ActivityPage, [])
    ensures r.GuardedRoute? && r.requiredRoles == [] <==> RoleFree(path)
  {
    if path == [] then RedirectRoute("/dashboard")
    else if path == ["login"] then PublicRoute(LoginPage)
    else if path == ["dashboard"] then GuardedRoute(DashboardPage, [])
    else if path == ["projects"] then GuardedRoute(ProjectsPage, [])
    else if |path| == 2 && path[0] == "projects" then GuardedRoute(ProjectDetailsPage(path[1]), [])
    else if path == ["bugs"] then GuardedRoute(BugsPage, [])
    else if path == ["bugs", "new"] then GuardedRoute(NewBugPage, ["admin", "tester"])
    else if |path| == 2 && path[0] == "bugs" then GuardedRoute(BugDetailsPage(path[1]), [])
    else if path == ["activity"] then GuardedRoute(ActivityPage, [])
    else if path == ["users"] then GuardedRoute(UsersPage, ["admin"])
    else if path == ["settings"] then GuardedRoute(SettingsPage, ["admin"])
    else PublicRoute(NotFoundPage)
  }

  /** The protected paths that only need a signed-in user. */
  predicate RoleFree(path: seq<string>) {
    path == ["dashboard"] || path == ["projects"] || path == ["bugs"] || path == ["activity"]
    || (|path| == 2 && path[0] == "projects")
    || (|path| == 2 && path[0] == "bugs" && path[1] != "new")
  }

  /** Paths the table names explicitly. */
  predicate Known(path: seq<string>) {
    path == [] || path == ["login"] || path == ["dashboard"] || path == ["projects"]
    || (|path| == 2 && (path[0] == "projects" || path[0] == "bugs"))
    || path == ["bugs"] || path == ["activity"] || path == ["users"] || path == ["settings"]
  }

  /** Every path outside the table reaches the not-found page. */
  lemma UnmatchedIsNotFound(path: seq<string>)
    ensures !Known(path) <==> Match(path) == PublicRoute(NotFoundPage)
  {
  }

  datatype Decision = Render | ToLogin | ToDashboard

  /** The protected-route gate: no user means the login page whatever the
      roles; a user whose role is not among non-empty required roles goes to the
      dashboard; everything else renders. */
  function Gate(requiredRoles: seq<string>, currentUser: Option<User>): (d: Decision)
    ensures d == ToLogin <==> currentUser.None?
    ensures d == ToDashboard <==>
      currentUser.Some? && |requiredRoles| > 0 && RoleName(currentUser.value.role) !in requiredRoles
    ensures d == Render <==>
      currentUser.Some? && (requiredRoles == [] || RoleName(currentUser.value.role) in requiredRoles)
  {
    if currentUser.None? then ToLogin
    else if |requiredRoles| > 0 && RoleName(currentUser.value.role) !in requiredRoles then ToDashboard
    else Render
  }

  datatype Outcome = Show(page: Page) | Go(target: string)

  /** Navigating to a path: follow the table, passing guarded pages through the gate. */
  function Navigate(path: seq<string>, currentUser: Option<User>): (o: Outcome)
    ensures currentUser.None? && o.Show? ==> o.page == LoginPage || o.page == NotFoundPage
    ensures o.Show? && o.page == NewBugPage ==> currentUser.Some? && currentUser.value.role != Developer
    ensures o.Show? && (o.page == UsersPage || o.page == SettingsPage) ==>
      currentUser.Some? && currentUser.value.role == Admin
  {
    match Match(path)
    case RedirectRoute(t) => Go(t)
    case PublicRoute(p) => Show(p)
    case GuardedRoute(p, roles) =>
      match Gate(roles, currentUser)
      case Render => Show(p)
      case ToLogin => Go("/login")
      case ToDashboard => Go("/dashboard")
  }

  /** A developer asking for the bug form is sent to the dashboard; admins and
      testers get the form. */
  lemma NewBugGate(u: User)
    ensures Navigate(["bugs", "new"], Some(u)) ==
      if u.role == Developer then Go("/dashboard") else Show(NewBugPage)
  {
  }

  /** Signed out, every guarded page sends to the login page; signed in, the
      root lands on the dashboard after its redirect. */
  lemma SignedOutAndRoot(path: seq<string>, u: User)
    requires Match(path).GuardedRoute?
    ensures Navigate(path, None) == Go("/login")
    ensures Navigate([], Some(u)) == Go("/dashboard") && Navigate(["dashboard"], Some(u)) == Show(DashboardPage)
  {
  }

  /** Every signed-in user, whatever the role, is shown the page of a role-free
      path, with the path's parameter. */
  lemma SignedInSeesRoleFreePages(path: seq<string>, u: User)
    ensures RoleFree(path) ==> Navigate(path, Some(u)) == Show(Match(path).page)
    ensures path == ["dashboard"] ==> Navigate(path, Some(u)) == Show(DashboardPage)
    ensures path == ["projects"] ==> Navigate(path, Some(u)) == Show(ProjectsPage)
    ensures |path| == 2 && path[0] == "projects" ==> Navigate(path, Some(u)) == Show(ProjectDetailsPage(path[1]))
    ensures path == ["bugs"] ==> Navigate(path, Some(u)) == Show(BugsPage)
    ensures |path| == 2 && path[0] == "bugs" && path[1] != "new" ==> Navigate(path, Some(u)) == Show(BugDetailsPage(path[1]))
    ensures path == ["activity"] ==> Navigate(path, Some(u)) == Show(ActivityPage)
  {
  }
}

=== FILE: seqs.dfy ===
/** The array operations the pages and stores are built from: `filter`,
    `find`/`findIndex`, `slice(0, n)`, `splice(i, 1)`, and the subsequence order
    that `filter` preserves. */
module Seqs {
  import opened Base

  /** `s.filter(p)`: the elements satisfying `p`, in their original order. */
  function Filter<T>(s: seq<T>, p: T -> bool): (r: seq<T>)
    ensures |r| <= |s|
    ensures forall i :: 0 <= i < |r| ==> r[i] in s && p(r[i])
    ensures forall i :: 0 <= i < |s| && p(s[i]) ==> s[i] in r
  {
    if |s| == 0 then []
    else if p(s[0]) then [s[0]] + Filter(s[1..], p)
    else Filter(s[1..], p)
  }

  /** `filter` keeps every copy of a kept value and no copy of a dropped one. */
  lemma {:induction false} FilterMultiplicity<T>(s: seq<T>, p: T -> bool)
    ensures forall x :: multiset(Filter(s, p))[x] == if p(x) then multiset(s)[x] else 0
  {
    if |s| > 0 {
      FilterMultiplicity(s[1..], p);
      assert s == [s[0]] + s[1..];
    }
  }

  /** `a` can be obtained from `b` by deleting elements, keeping the order. */
  predicate IsSubseq<T(==)>(a: seq<T>, b: seq<T>)
    decreases |b|
  {
    if |a| == 0 then true
    else if |b| == 0 then false
    else (a[0] == b[0] && IsSubseq(a[1..], b[1..])) || IsSubseq(a, b[1..])
  }

  /** `filter` keeps the relative order of what it keeps. */
  lemma {:induction false} FilterIsSubseq<T>(s: seq<T>, p: T -> bool)
    ensures IsSubseq(Filter(s, p), s)
  {
    if |s| > 0 {
      FilterIsSubseq(s[1..], p);
      var r := Filter(s, p);
      if p(s[0]) {
        assert r[0] == s[0] && r[1..] == Filter(s[1..], p);
      }
    }
  }

  /** A subsequence of a subsequence is a subsequence. */
  lemma {:induction false} SubseqTransitive<T>(a: seq<T>, b: seq<T>, c: seq<T>)
    requires IsSubseq(a, b) && IsSubseq(b, c)
    ensures IsSubseq(a, c)
    decreases |c|
  {
    if |a| == 0 {
    } else if |c| == 0 {
    } else if b[0] == c[0] && IsSubseq(b[1..], c[1..]) {
      if a[0] == b[0] && IsSubseq(a[1..], b[1..]) {
        SubseqTransitive(a[1..], b[1..], c[1..]);
      } else {
        SubseqTransitive(a, b[1..], c[1..]);
      }
    } else {
      SubseqTransitive(a, b, c[1..]);
    }
  }

  /** A predicate true of every element keeps the whole list. */
  lemma {:induction false} FilterKeepsAll<T>(s: seq<T>, p: T -> bool)
    requires forall i :: 0 <= i < |s| ==> p(s[i])
    ensures Filter(s, p) == s
  {
    if |s| > 0 {
      FilterKeepsAll(s[1..], p);
    }
  }

  /** Nothing is kept when no element passes. */
  lemma {:induction false} FilterKeepsNone<T>(s: seq<T>, p: T -> bool)
    requires forall i :: 0 <= i < |s| ==> !p(s[i])
    ensures Filter(s, p) == []
  {
    if |s| > 0 {
      FilterKeepsNone(s[1..], p);
    }
  }

  /** Filters that agree on every element of the list give the same result. */
  lemma {:induction false} FilterCongruent<T>(s: seq<T>, p: T -> bool, q: T -> bool)
    requires forall i :: 0 <= i < |s| ==> p(s[i]) == q(s[i])
    ensures Filter(s, p) == Filter(s, q)
  {
    if |s| > 0 {
      FilterCongruent(s[1..], p, q);
    }
  }

  /** Filtering twice is filtering once by the conjunction. */
  lemma {:induction false} FilterFilter<T>(s: seq<T>, p: T -> bool, q: T -> bool, pq: T -> bool)
    requires forall i :: 0 <= i < |s| ==> pq(s[i]) == (p(s[i]) && q(s[i]))
    ensures Filter(Filter(s, p), q) == Filter(s, pq)
  {
    if |s| > 0 {
      FilterFilter(s[1..], p, q, pq);
    }
  }

  /** Filtering a concatenation filters each part. */
  lemma {:induction false} FilterAppend<T>(a: seq<T>, b: seq<T>, p: T -> bool)
    ensures Filter(a + b, p) == Filter(a, p) + Filter(b, p)
  {
    if |a| == 0 {
      assert a + b == b;
    } else {
      assert (a + b)[1..] == a[1..] + b;
      FilterAppend(a[1..], b, p);
    }
  }

  /** Two filters whose predicates never hold together count, side by side,
      what their disjunction counts. */
  lemma {:induction false} FilterDisjointCount<T>(s: seq<T>, p: T -> bool, q: T -> bool, pq: T -> bool)
    requires forall i :: 0 <= i < |s| ==> !(p(s[i]) && q(s[i]))
    requires forall i :: 0 <= i < |s| ==> pq(s[i]) == (p(s[i]) || q(s[i]))
    ensures |Filter(s, p)| + |Filter(s, q)| == |Filter(s, pq)|
  {
    if |s| > 0 {
      FilterDisjointCount(s[1..], p, q, pq);
    }
  }

  /** `s.findIndex(p)`: the first index satisfying `p`, or none. */
  function FindIndex<T>(s: seq<T>, p: T -> bool): (r: Option<nat>)
    ensures r.None? <==> forall i :: 0 <= i < |s| ==> !p(s[i])
    ensures r.Some? ==> r.value < |s| && p(s[r.value])
    ensures r.Some? ==> forall j :: 0 <= j < r.value ==> !p(s[j])
  {
    if |s| == 0 then None
    else if p(s[0]) then Some(0)
    else match FindIndex(s[1..], p)
      case None => None
      case Some(k) => Some(k + 1)
  }

  /** `s.find(p)`: the first element satisfying `p`, or none. */
  function Find<T>(s: seq<T>, p: T -> bool): (r: Option<T>)
    ensures r.None? <==> forall i :: 0 <= i < |s| ==> !p(s[i])
    ensures r.Some? ==> exists i :: (0 <= i < |s| && s[i] == r.value && p(s[i])
      && forall j :: 0 <= j < i ==> !p(s[j]))
  {
    match FindIndex(s, p)
    case None => None
    case Some(i) => Some(s[i])
  }

  /** `s.slice(0, n)`. */
  function Take<T>(s: seq<T>, n: nat): (r: seq<T>)
    ensures |r| == if n < |s| then n else |s|
    ensures IsSubseq(r, s)
    ensures forall i :: 0 <= i < |r| ==> r[i] == s[i]
    ensures r == s[..|r|]
  {
    var r := if n < |s| then s[..n] else s;
    PrefixIsSubseq(r, s);
    r
  }

  lemma {:induction false} PrefixIsSubseq<T>(a: seq<T>, b: seq<T>)
    requires |a| <= |b| && a == b[..|a|]
    ensures IsSubseq(a, b)
  {
    if |a| > 0 {
      PrefixIsSubseq(a[1..], b[1..]);
    }
  }

  /** A subsequence is no longer than the list it comes from. */
  lemma {:induction false} SubseqLength<T>(a: seq<T>, b: seq<T>)
    requires IsSubseq(a, b)
    ensures |a| <= |b|
    decreases |b|
  {
    if |a| > 0 {
      if a[0] == b[0] && IsSubseq(a[1..], b[1..]) {
        SubseqLength(a[1..], b[1..]);
      } else {
        SubseqLength(a, b[1..]);
      }
    }
  }

  /** Every element of a subsequence is an element of the list. */
  lemma {:induction false} SubseqMembers<T>(a: seq<T>, b: seq<T>)
    requires IsSubseq(a, b)
    ensures forall i :: 0 <= i < |a| ==> a[i] in b
    decreases |b|
  {
    if |a| > 0 {
      if a[0] == b[0] && IsSubseq(a[1..], b[1..]) {
        SubseqMembers(a[1..], b[1..]);
        assert forall i :: 1 <= i < |a| ==> a[i] == a[1..][i - 1];
      } else {
        SubseqMembers(a, b[1..]);
      }
    }
  }

  /** `copy.splice(i, 1)`: the list without position `i`. */
  function RemoveAt<T>(s: seq<T>, i: nat): (r: seq<T>)
    requires i < |s|
    ensures |r| == |s| - 1
    ensures forall j :: 0 <= j < i ==> r[j] == s[j]
    ensures forall j :: i <= j < |r| ==> r[j] == s[j + 1]
    ensures multiset(r) + multiset{s[i]} == multiset(s)
  {
    assert s == s[..i] + [s[i]] + s[i + 1..];
    s[..i] + s[i + 1..]
  }
}

=== FILE: storage.dfy ===
/** The browser's origin-scoped key/value storage (`localStorage`), shared by
    the mock store (current user id), the API client (bearer token) and the
    notification settings. */
module Storage {
  import opened Base

  type Storage = map<string, string>

  const AuthTokenKey: string := "auth_token"
  const CurrentUserKey: string := "current_user_id"
  const NotificationKey: string := "notification_settings"

  /** `localStorage.getItem(k)`: the stored text, or `null`. */
  function GetItem(ls: Storage, k: string): Option<string> {
    if k in ls then Some(ls[k]) else None
  }

  function SetItem(ls: Storage, k: string, v: string): Storage {
    ls[k := v]
  }

  function RemoveItem(ls: Storage, k: string): Storage {
    ls - {k}
  }

  /** Writing a key and reading it back gives the value; other keys are untouched. */
  lemma SetThenGet(ls: Storage, k: string, v: string, other: string)
    ensures GetItem(SetItem(ls, k, v), k) == Some(v)
    ensures other != k ==> GetItem(SetItem(ls, k, v), other) == GetItem(ls, other)
    ensures GetItem(RemoveItem(ls, k), k) == None
    ensures other != k ==> GetItem(RemoveItem(ls, k), other) == GetItem(ls, other)
  {
  }
}

=== FILE: strings.dfy ===
/** String helpers with JavaScript's semantics over `seq<char>` (one element
    per Unicode scalar value): `includes`, ASCII `toLowerCase`, `trim`, integer-to-decimal
    conversion and `encodeURIComponent`. */
module Strings {

  /** `s.startsWith(p)`. */
  predicate IsPrefix(p: string, s: string) {
    |p| <= |s| && s[..|p|] == p
  }

  /** `hay.includes(needle)`: some window of `hay` equals `needle`. */
  predicate Contains(hay: string, needle: string)
    decreases |hay|
  {
    IsPrefix(needle, hay) || (|hay| > 0 && Contains(hay[1..], needle))
  }

  /** `needle` occurs in `hay` starting at offset `i`. */
  predicate OccursAt(hay: string, needle: string, i: int) {
    0 <= i <= |hay| - |needle| && hay[i..i + |needle|] == needle
  }

  /** `includes` is exactly "occurs at some offset". */
  lemma {:induction false} ContainsAt(hay: string, needle: string)
    ensures Contains(hay, needle) <==> exists i :: OccursAt(hay, needle, i)
    decreases |hay|
  {
    if IsPrefix(needle, hay) {
      assert OccursAt(hay, needle, 0);
    } else if |hay| == 0 {
    } else {
      ContainsAt(hay[1..], needle);
      if Contains(hay[1..], needle) {
        var i :| OccursAt(hay[1..], needle, i);
        assert hay[i + 1..i + 1 + |needle|] == hay[1..][i..i + |needle|];
        assert OccursAt(hay, needle, i + 1);
      }
      if exists i :: OccursAt(hay, needle, i) {
        var i :| OccursAt(hay, needle, i);
        assert i != 0;
        assert hay[1..][i - 1..i - 1 + |needle|] == hay[i..i + |needle|];
        assert OccursAt(hay[1..], needle, i - 1);
      }
    }
  }

  /** The empty string is included in every string, as in JavaScript. */
  lemma ContainsEmpty(hay: string)
    ensures Contains(hay, "")
  {
  }

  function LowerChar(c: char): char {
    if 'A' <= c <= 'Z' then (c as int + 32) as char else c
  }

  /** `s.toLowerCase()` restricted to ASCII letters. */
  function Lower(s: string): (r: string)
    ensures |r| == |s|
    ensures forall i :: 0 <= i < |s| ==> r[i] == LowerChar(s[i])
    ensures forall i :: 0 <= i < |r| ==> !('A' <= r[i] <= 'Z')
  {
    if |s| == 0 then "" else [LowerChar(s[0])] + Lower(s[1..])
  }

  /** Case-insensitive (ASCII) equality, as `a.toLowerCase() === b.toLowerCase()`. */
  predicate EqualsIgnoreCase(a: string, b: string) {
    Lower(a) == Lower(b)
  }

  /** Case-insensitive `includes`, as `hay.toLowerCase().includes(q.toLowerCase())`. */
  predicate ContainsIgnoreCase(hay: string, q: string) {
    Contains(Lower(hay), Lower(q))
  }

  /** The WhiteSpace and LineTerminator code points that ECMAScript's
      `String.prototype.trim` strips (section 22.1.3.32 of ECMA-262). */
  predicate IsJsWhitespace(c: char) {
    c == '\t' || c == '\n' || c == '\U{000B}' || c == '\U{000C}' || c == '\r' || c == ' '
    || c == '\U{00A0}' || c == '\U{1680}' || ('\U{2000}' <= c <= '\U{200A}')
    || c == '\U{2028}' || c == '\U{2029}' || c == '\U{202F}' || c == '\U{205F}'
    || c == '\U{3000}' || c == '\U{FEFF}'
  }

  function TrimStart(s: string): (r: string)
    ensures |r| <= |s| && r == s[|s| - |r|..]
    ensures |r| > 0 ==> !IsJsWhitespace(r[0])
    ensures forall i :: 0 <= i < |s| - |r| ==> IsJsWhitespace(s[i])
  {
    if |s| > 0 && IsJsWhitespace(s[0]) then TrimStart(s[1..]) else s
  }

  function TrimEnd(s: string): (r: string)
    ensures |r| <= |s| && r == s[..|r|]
    ensures |r| > 0 ==> !IsJsWhitespace(r[|r| - 1])
    ensures forall i :: |r| <= i < |s| ==> IsJsWhitespace(s[i])
  {
    if |s| > 0 && IsJsWhitespace(s[|s| - 1]) then TrimEnd(s[..|s| - 1]) else s
  }

  /** `s.trim()`. */
  function Trim(s: string): string {
    TrimEnd(TrimStart(s))
  }

  /** `!s.trim()` holds exactly for strings made only of whitespace. */
  lemma TrimEmptyIffBlank(s: string)
    ensures Trim(s) == "" <==> forall i :: 0 <= i < |s| ==> IsJsWhitespace(s[i])
  {
    var t := TrimStart(s);
    if Trim(s) == "" {
      assert |t| == 0;
    } else {
      var j := |s| - |t|;
      assert |t| > 0;
      assert !IsJsWhitespace(s[j]);
    }
  }

  function DigitChar(d: nat): (c: char)
    requires d < 10
    ensures '0' <= c <= '9' && c as int - '0' as int == d
  {
    ('0' as int + d) as char
  }

  predicate IsDigit(c: char) {
    '0' <= c <= '9'
  }

  function DigitValue(c: char): nat
    requires IsDigit(c)
  {
    c as int - '0' as int
  }

  /** Whether JavaScript stores the character as two UTF-16 code units (a
      surrogate pair): every character above the Basic Multilingual Plane. */
  predicate IsAstral(c: char) {
    c as int >= 0x10000
  }

  /** JavaScript's `length`: UTF-16 code units, so an astral character counts twice. */
  function JsLength(s: string): (n: nat)
    ensures |s| <= n <= 2 * |s|
    ensures n == |s| <==> forall i :: 0 <= i < |s| ==> !IsAstral(s[i])
  {
    if |s| == 0 then 0
    else
      var rest := JsLength(s[1..]);
      assert forall i :: 1 <= i < |s| ==> s[i] == s[1..][i - 1];
      (if IsAstral(s[0]) then 2 else 1) + rest
  }

  /** The length of a concatenation is the sum of the lengths. */
  lemma {:induction false} JsLengthAppend(a: string, b: string)
    ensures JsLength(a + b) == JsLength(a) + JsLength(b)
    decreases |a|
  {
    if |a| == 0 {
      assert a + b == b;
    } else {
      assert (a + b)[1..] == a[1..] + b;
      JsLengthAppend(a[1..], b);
    }
  }

  /** An emoji followed by one letter is three code units long, though it is
      two characters. */
  lemma EmojiCountsTwice()
    ensures |"\U{1F600}a"| == 2 && JsLength("\U{1F600}a") == 3
  {
    assert "\U{1F600}a"[1..] == "a";
  }

  /** Decimal rendering of a natural number, as JavaScript's `String(n)` for
      integers below 10^21. */
  function NatToString(n: nat): (r: string)
    ensures |r| >= 1
    ensures forall i :: 0 <= i < |r| ==> IsDigit(r[i])
    ensures r[0] == '0' ==> n == 0
    decreases n
  {
    if n < 10 then [DigitChar(n)] else NatToString(n / 10) + [DigitChar(n % 10)]
  }

  /** Value of a string of decimal digits. */
  function ParseDigits(s: string): nat
    requires forall i :: 0 <= i < |s| ==> IsDigit(s[i])
  {
    if |s| == 0 then 0 else 10 * ParseDigits(s[..|s| - 1]) + DigitValue(s[|s| - 1])
  }

  /** Reading back the decimal rendering gives the number. */
  lemma {:induction false} NatToStringRoundTrip(n: nat)
    ensures ParseDigits(NatToString(n)) == n
    decreases n
  {
    if n >= 10 {
      var s := NatToString(n);
      NatToStringRoundTrip(n / 10);
      assert s[..|s| - 1] == NatToString(n / 10);
    }
  }

  /** The rendering is injective: different numbers print differently. */
  lemma NatToStringInjective(a: nat, b: nat)
    requires NatToString(a) == NatToString(b)
    ensures a == b
  {
    NatToStringRoundTrip(a);
    NatToStringRoundTrip(b);
  }

  /** `String(i)` for an integer, with a leading minus sign when negative. */
  function IntToString(i: int): (r: string)
    ensures |r| >= 1
    ensures i < 0 <==> r[0] == '-'
    ensures i >= 0 ==> r == NatToString(i)
    ensures i < 0 ==> r == "-" + NatToString(-i)
  {
    if i < 0 then "-" + NatToString(-i) else NatToString(i)
  }

  /** Different integers print differently. */
  lemma IntToStringInjective(a: int, b: int)
    requires IntToString(a) == IntToString(b)
    ensures a == b
  {
    if a < 0 {
      assert IntToString(a)[1..] == NatToString(-a);
      assert IntToString(b)[1..] == NatToString(-b);
      NatToStringInjective(-a, -b);
    } else {
      NatToStringInjective(a, b);
    }
  }

  /** Characters `encodeURIComponent` leaves as they are. */
  predicate IsUriUnreserved(c: char) {
    ('A' <= c <= 'Z') || ('a' <= c <= 'z') || ('0' <= c <= '9')
    || c == '-' || c == '_' || c == '.' || c == '!' || c == '~'
    || c == '*' || c == '\'' || c == '(' || c == ')'
  }

  function HexDigit(d: nat): (c: char)
    requires d < 16
    ensures ('0' <= c <= '9') || ('A' <= c <= 'F')
  {
    if d < 10 then ('0' as int + d) as char else ('A' as int + d - 10) as char
  }

  /** `%XY` for one byte. */
  function PercentByte(b: nat): (r: string)
    requires b < 256
    ensures |r| == 3 && r[0] == '%'
    ensures forall i :: 0 <= i < |r| ==> IsUriSafe(r[i])
  {
    ['%', HexDigit(b / 16), HexDigit(b % 16)]
  }

  /** The UTF-8 bytes of one Unicode scalar value, each written as `%XY`. */
  function PercentEncodeChar(c: char): (r: string)
    ensures |r| >= 3 && r[0] == '%'
    ensures forall i :: 0 <= i < |r| ==> IsUriSafe(r[i])
  {
    var u := c as int;
    if u < 0x80 then PercentByte(u)
    else if u < 0x800 then PercentByte(0xC0 + u / 64) + PercentByte(0x80 + u % 64)
    else if u < 0x10000 then
      PercentByte(0xE0 + u / 4096) + PercentByte(0x80 + (u / 64) % 64) + PercentByte(0x80 + u % 64)
    else
      PercentByte(0xF0 + u / 262144) + PercentByte(0x80 + (u / 4096) % 64)
      + PercentByte(0x80 + (u / 64) % 64) + PercentByte(0x80 + u % 64)
  }

  /** Characters that may appear in the output of `encodeURIComponent`. */
  predicate IsUriSafe(c: char) {
    IsUriUnreserved(c) || c == '%'
  }

  /** One character as `encodeURIComponent` writes it: unreserved characters
      stand for themselves, every other one becomes its `%XY` bytes. */
  function EncodeUriChar(c: char): (r: string)
    ensures IsUriUnreserved(c) <==> r == [c]
    ensures !IsUriUnreserved(c) ==> r == PercentEncodeChar(c) && r[0] == '%'
  {
    if IsUriUnreserved(c) then [c] else PercentEncodeChar(c)
  }

  /** `encodeURIComponent(s)`: the output never contains a query delimiter. */
  function EncodeUriComponent(s: string): (r: string)
    ensures |r| >= |s|
    ensures forall i :: 0 <= i < |r| ==> IsUriSafe(r[i])
    ensures (forall i :: 0 <= i < |s| ==> IsUriUnreserved(s[i])) ==> r == s
    ensures |s| == 1 ==> r == EncodeUriChar(s[0])
  {
    if |s| == 0 then ""
    else
      var head := EncodeUriChar(s[0]);
      var tail := EncodeUriComponent(s[1..]);
      assert forall i :: 0 <= i < |tail| ==> (head + tail)[|head| + i] == tail[i];
      head + tail
  }

  /** Encoding works character by character: the encoding of a concatenation is
      the concatenation of the encodings. */
  lemma {:induction false} EncodeUriConcat(a: string, b: string)
    ensures EncodeUriComponent(a + b) == EncodeUriComponent(a) + EncodeUriComponent(b)
    decreases |a|
  {
    if |a| > 0 {
      assert (a + b)[1..] == a[1..] + b;
      EncodeUriConcat(a[1..], b);
    } else {
      assert a + b == b;
    }
  }

  /** Appending one character appends exactly that character's encoding. */
  lemma EncodeUriSnoc(s: string, c: char)
    ensures EncodeUriComponent(s + [c]) == EncodeUriComponent(s) + EncodeUriChar(c)
  {
    EncodeUriConcat(s, [c]);
  }
}

=== FILE: types.dfy ===
/** The domain records: users with one of three roles, projects grouping
    dashboards, bugs with a three-valued priority and status, and the activity
    log entries the mock store derives from bug mutations. Timestamps are
    milliseconds since the epoch. */
module Types {
  import opened Base

  datatype Role = Admin | Developer | Tester

  datatype Priority = High | Medium | Low

  datatype Status = Fixed | Pending | Declined

  /** `avatar` is the only optional field of a user. */
  datatype User = User(id: string, name: string, email: string, role: Role, avatar: Option<string>)

  datatype Dashboard = Dashboard(id: string, name: string, projectId: string)

  datatype Project = Project(id: string, name: string, description: string, isActive: bool,
                             dashboards: seq<Dashboard>)

  /** A bug references exactly one project and one reporter; the assignee is optional. */
  datatype Bug = Bug(
    id: string,
    name: string,
    description: string,
    projectId: string,
    affectedDashboards: seq<string>,
    reporterId: string,
    assigneeId: Option<string>,
    priority: Priority,
    status: Status,
    createdAt: int,
    updatedAt: int,
    screenshots: seq<string>,
    files: seq<string>)

  /** An entry of the activity log; `kind` is the string the source calls `type`. */
  datatype Activity = Activity(id: string, kind: string, userId: string, description: string,
                               projectId: string, createdAt: int)

  /** The string literal the source uses for a role. */
  function RoleName(r: Role): string {
    match r
    case Admin => "admin"
    case Developer => "developer"
    case Tester => "tester"
  }

  /** A role string is exactly one of the three names. */
  function ParseRole(s: string): (r: Option<Role>)
    ensures r.Some? <==> s == "admin" || s == "developer" || s == "tester"
    ensures r.Some? ==> RoleName(r.value) == s
  {
    if s == "admin" then Some(Admin)
    else if s == "developer" then Some(Developer)
    else if s == "tester" then Some(Tester)
    else None
  }

  function PriorityName(p: Priority): string {
    match p
    case High => "high"
    case Medium => "medium"
    case Low => "low"
  }

  /** A priority string is exactly one of high, medium and low. */
  function ParsePriority(s: string): (r: Option<Priority>)
    ensures r.Some? <==> s == "high" || s == "medium" || s == "low"
    ensures r.Some? ==> PriorityName(r.value) == s
  {
    if s == "high" then Some(High)
    else if s == "medium" then Some(Medium)
    else if s == "low" then Some(Low)
    else None
  }

  function StatusName(s: Status): string {
    match s
    case Fixed => "fixed"
    case Pending => "pending"
    case Declined => "declined"
  }

  /** A status string is exactly one of fixed, pending and declined: neither
      `in_progress` nor `rejected` is a status of this data model. */
  function ParseStatus(s: string): (r: Option<Status>)
    ensures r.Some? <==> s == "fixed" || s == "pending" || s == "declined"
    ensures r.Some? ==> StatusName(r.value) == s
  {
    if s == "fixed" then Some(Fixed)
    else if s == "pending" then Some(Pending)
    else if s == "declined" then Some(Declined)
    else None
  }

  /** Names are distinct, so each enumeration round-trips through its strings. */
  lemma NamesRoundTrip(r: Role, p: Priority, s: Status)
    ensures ParseRole(RoleName(r)) == Some(r)
    ensures ParsePriority(PriorityName(p)) == Some(p)
    ensures ParseStatus(StatusName(s)) == Some(s)
  {
  }
}
